=== FILE: README.md ===
# Vina-family docking layer of pyscreener, modelled in Dafny

This project models the layer of pyscreener that drives the AutoDock Vina family of docking
programs: vina, psovina, qvina and smina. The model covers five parts.

- **The calculation record** `VinaCalculationData` (module `VinaData`, file `data.dfy`). It is a
  class with the dataclass fields and their defaults. Its constructor performs the
  `__post_init__` normalisation. The `score` accessor distinguishes three cases: "not
  simulated", "malformed result" and "score, possibly `None`". The `Software` enum maps each
  member to its lower-cased name.
- **The invocation builder** `build_argv` (module `VinaRunner`, file `runner.dfy`). It builds
  the 12-entry argument vector, the default base name `<receptor stem>_<ligand stem>` and the
  out and log file names. A round-trip lemma shows that the docking program reads every input
  back from the vector.
- **The log parser** `parse_logfile`, on the log's lines. It is written as two loops, like the
  source: one skips to the first table-border line, the other collects the second word of each
  row up to the first "Writing" line. Both loops are proved against a specification function.
  Lemmas say which lines count and that only the table rows matter.
- **Ligand naming for multi-molecule files**, from `prepare_from_file`. The padding width
  `ceil(log10(n + offset)) + 1` is computed in exact integers. The method builds its two lists
  in a loop and is proved against a function that names each molecule. Lemmas show that the
  padded names of untitled molecules all have one length and sort as strings in file order.
- **The steps that update the record in place**: `prepare_receptor`, `prepare_from_smi`,
  `prepare` and `run`. These are methods whose `modifies` clause names exactly the fields each
  writes: `prepare` writes both prepared files, and each of the others writes one field.

The external programs are parameters of the model:

- the receptor preparation tool and the docking binary, as functions from an argument vector to
  how the program ends (`ToolRun`): success, an error exit, or a program that cannot be started
  at all, which makes `sp.run` raise;
- openbabel, as a predicate over the SMILES string and the target file;
- the log file the docking binary leaves, as a function from a path to the file's lines or
  `None`;
- `float()`, `utils.calc_score`, `shlex.split` and the ray node id.

Python's `str.split()`, the substring test, `str(n)`, the zero-padded format, string `<` and
the parts of `pathlib` used are defined in `strings.dfy` and `paths.dfy`.

## Model

| member | source | states |
|---|---|---|
| VinaData.Software.Value | pyscreener/docking/vina/data.py:10-17 | Each member's value is a non-empty name that does not start with '-', so it can never be read as an option. |
| VinaData.ValueIsLowerName | pyscreener/docking/vina/data.py:11-17 | Each member's value is its declared name lower-cased (`_generate_next_value_`). Distinct members have distinct values. |
| VinaData.VinaCalculationData.constructor | pyscreener/docking/vina/data.py:90-110 | Sets every field to the argument given, except three. `extra` becomes `[]` when it is absent or empty and its shell split otherwise. `in_path` and `out_path` become paths. |
| VinaData.VinaCalculationData.WithDefaults | pyscreener/docking/vina/data.py:90-105 | A record built from the four required fields has the default values: size (10,10,10), ncpu 1, no extra arguments, name "ligand", directories ".", score mode BEST, k 1, nothing prepared and no result. Its `score` is NotSimulatedError. |
| VinaData.VinaCalculationData.Score | pyscreener/docking/vina/data.py:112-131 | NotSimulatedError exactly when there is no result. InvalidResultError exactly when the result has no "score" key. Otherwise the stored entry, unchanged, which may be `None`. Reads only. |
| VinaRunner.BaseName | pyscreener/docking/vina/runner.py:229 | The base name is never empty. A given non-empty name is kept. `None` or "" falls back to `<receptor stem>_<ligand stem>`. |
| Strings.IntToString | pyscreener/docking/vina/runner.py:241 | `str(n)` is the canonical decimal: for `n >= 0` exactly `NumDigits(n)` digits (no leading zeros) reading back as `n`; otherwise '-' followed by the `NumDigits(-n)` digits of `-n`. |
| VinaRunner.Options | pyscreener/docking/vina/runner.py:236-241 | One entry per key. The docking program reads entry `i` back as key `i` with value `i`, whatever the value holds, whenever the key has no '='. |
| VinaRunner.ReadFlagOfFlag | pyscreener/docking/vina/runner.py:236-241 | `--key=value` reads back as that key and value, for a key without '='. |
| VinaRunner.BuildArgv | pyscreener/docking/vina/runner.py:229-244 | The argv is the program's value, then the eleven options receptor, ligand, center_x/y/z, size_x/y/z, cpu, out and log, then `extra`, or nothing when `extra` is missing. A given non-empty name is used unchanged; otherwise the name is `<receptor stem>_<ligand stem>`. The out file is `path/<software>_<name>_out.pdbqt` and the log file is `path/<software>_<name>.log`. The out and log files differ. |
| VinaRunner.ArgvRoundTrip | pyscreener/docking/vina/runner.py:235-242 | The argv has 12 + the number of extra entries. Entry 0 is not an option. Entries 1..11 read back as exactly the eleven keys with their values in order. The rest is `extra`, verbatim and in order. |
| VinaRunner.VectorReadsBack | pyscreener/docking/vina/runner.py:235-242 | For any program name that is not an option, one `--key=value` per key and any extras, the options read back as the keys with their values in order, and the extras follow unchanged. |
| VinaRunner.FirstContaining | pyscreener/docking/vina/runner.py:265-267 | The first line at or after `from` that contains the pattern: no earlier line contains it, and it is `|lines|` when none does. |
| VinaRunner.RowScore | pyscreener/docking/vina/runner.py:279 | A row with fewer than two words has no score. Otherwise its score is its second word read as a number, if that reads. |
| VinaRunner.TableBoundsMeans | pyscreener/docking/vina/runner.py:265-271 | There are no bounds exactly when no line contains the border. Otherwise the rows start right after the first border line (no earlier line contains the border), hold no "Writing" line, and end at the first "Writing" line after the border or at the end of the log. |
| VinaRunner.TableBoundsIs | pyscreener/docking/vina/runner.py:265-271 | Conversely, a first border line at `b` and a first "Writing" line after it at `w` (or the end) give exactly the bounds `(b + 1, w)`. |
| VinaRunner.ParseLog | pyscreener/docking/vina/runner.py:247-283 | Never an empty list. `None` when the log cannot be opened. |
| VinaRunner.SkipTo | pyscreener/docking/vina/runner.py:265-267 | The skip loop stops at the first line that contains the pattern, or at the end of the log. |
| VinaRunner.CollectScores | pyscreener/docking/vina/runner.py:269-281 | The collecting loop stops at the first "Writing" line. It returns the scores of the rows before that line, in row order; rows without a number add nothing. |
| VinaRunner.ParseLogfile | pyscreener/docking/vina/runner.py:247-283 | The loops compute exactly `ParseLog`: the scores of the table rows, or `None` when there are none or no border line exists. |
| VinaRunner.ParseLogWindow | pyscreener/docking/vina/runner.py:265-281 | For a log made of lines without the border, a border line, rows without "Writing", and then nothing or a "Writing" line followed by anything, the parse is the scores of exactly those rows. Lines before the border and after "Writing" never matter. |
| VinaRunner.ParseLogOfRows | pyscreener/docking/vina/runner.py:269-283 | A log whose table rows are `rows` parses to their scores, or `None` when they carry none. |
| VinaRunner.ParseLogOfOneRow | pyscreener/docking/vina/runner.py:265-283 | A border line followed by one scored row parses to exactly that score. |
| VinaRunner.ParseLogNoBorder | pyscreener/docking/vina/runner.py:265-283 | A log with no border line parses to `None`. |
| VinaRunner.RowScoresAllParse | pyscreener/docking/vina/runner.py:276-281 | When every row carries a number, the parse is exactly those numbers, in order, none dropped. |
| VinaRunner.RowScoreOfColumns | pyscreener/docking/vina/runner.py:279 | A row made of space-separated columns yields its second column. |
| VinaRunner.ParseLogAsWritten | pyscreener/docking/vina/runner.py:262-283 | As written the parser never returns. An opened log makes the row loop read the closed file (ValueError). A log that cannot be opened leaves `score_lines` unbound (UnboundLocalError). |
| VinaRunner.OpenedLogRaises | pyscreener/docking/vina/runner.py:264-277 | A log with one scored row raises as written. The intended parser returns that row's score. |
| VinaRunner.ScoresBetweenAsWritten | pyscreener/docking/vina/runner.py:276-281 | As written, the row loop can fail only with the IndexError of a short row. |
| VinaRunner.ScoresBetweenAsWrittenFails | pyscreener/docking/vina/runner.py:276-281 | As written, the row loop raises exactly when some row of the table is short, i.e. has fewer than two words. |
| VinaRunner.ParseLogRowsAsWritten | pyscreener/docking/vina/runner.py:276-283 | With the file read as intended and the row loop as written, the parser never returns an empty list when it returns. |
| VinaRunner.ScoresBetweenAsWrittenAgree | pyscreener/docking/vina/runner.py:276-281 | Where no row is short, the loop as written gives the intended scores. |
| VinaRunner.ParseLogRowsAsWrittenAgrees | pyscreener/docking/vina/runner.py:276-283 | On a log whose table has no short row, the row loop as written and the intended parser agree. |
| VinaRunner.ShortRowRaises | pyscreener/docking/vina/runner.py:278-281 | A log of a border line and then one blank line makes the row loop as written raise. The intended parser gives `None`. |
| VinaRunner.Width | pyscreener/docking/vina/runner.py:115 | The width is `1 + e`, where `e` is the least exponent with `total <= 10^e`: the exact ceiling of `log10(total)`, plus one. |
| Strings.CeilLog10 | pyscreener/docking/vina/runner.py:115 | The least `e` with `n <= 10^e`. |
| Strings.ZeroPadReadsBack | pyscreener/docking/vina/runner.py:123 | `f'{n:0{w}}'` is at least `w` characters and at least as long as `n`'s digits, all digits, and reads back as `n`: the padding never cuts a digit. |
| VinaRunner.LigandFiles | pyscreener/docking/vina/runner.py:111-136 | One pair per molecule, in input order. Each pair holds the molecule's SMILES and `path/<name>.pdbqt`. A titled molecule's name is its title. An untitled one's name is `ligand_` and `i + offset` zero-padded to the width. |
| VinaRunner.Zip | pyscreener/docking/vina/runner.py:136 | `zip` of two equally long lists pairs their items position by position, keeping every item. |
| VinaRunner.ZipSnoc | pyscreener/docking/vina/runner.py:133-136 | Appending one item to each list appends their pair to the zip. |
| VinaRunner.PrepareFromFile | pyscreener/docking/vina/runner.py:111-136 | The loop that appends to `smis` and `pdbqts`, followed by the zip, returns exactly `LigandFiles`. |
| VinaRunner.LigandFilesAsWritten | pyscreener/docking/vina/runner.py:115 | As written, the naming raises exactly when the file is empty and the offset is 0; otherwise it gives `LigandFiles`. |
| VinaRunner.EmptyFileRaises | pyscreener/docking/vina/runner.py:115 | An empty file with offset 0 raises as written, and the intended result is the empty list. |
| VinaRunner.PaddedIndex | pyscreener/docking/vina/runner.py:115-123 | Every index `i + offset` with `i` below the count fits the width. Its padding is exactly `width` digits with no truncation, and it reads back as the index. |
| VinaRunner.UntitledNamesSameLength | pyscreener/docking/vina/runner.py:115-123 | All untitled names of one file have the same length, `7 + width`. |
| VinaRunner.UntitledNamesSorted | pyscreener/docking/vina/runner.py:115-123 | For untitled molecules `i < j` of one file, name `i` sorts strictly before name `j` as a Python string. |
| VinaRunner.PaddedNamesOrder | pyscreener/docking/vina/runner.py:123 | Names padded to a common width without truncation compare as strings the way their indices compare. |
| Strings.StrLess | pyscreener/docking/vina/runner.py:123 | Python's string `<`: a string never sorts before itself. |
| Strings.StrLessAsymmetric | pyscreener/docking/vina/runner.py:123 | If `a < b` as strings, then not `b < a`. |
| Strings.FixedOrder | pyscreener/docking/vina/runner.py:123 | Fixed-width decimal renderings of numbers below `10^w` sort as strings in numeric order. |
| Strings.FixedRoundTrip | pyscreener/docking/vina/runner.py:123 | A number below `10^w`, rendered in `w` digits, reads back as itself. |
| VinaRunner.LigandFileStem | pyscreener/docking/vina/runner.py:126 | The stem of `dir/<name>.pdbqt` is `name`, for a non-empty name without '/'. |
| VinaRunner.ReceptorPdbqtName | pyscreener/docking/vina/runner.py:40-41 | The prepared receptor file's name is the receptor's stem with the suffix ".pdbqt". |
| VinaRunner.ReceptorArgv | pyscreener/docking/vina/runner.py:43-45 | The tool's argument vector is exactly the five entries `prepare_receptor -r <receptor> -o <pdbqt>`. |
| VinaRunner.ReceptorPdbqtStem | pyscreener/docking/vina/runner.py:40-41 | The prepared receptor file keeps the receptor's stem. |
| VinaRunner.PrepareReceptor | pyscreener/docking/vina/runner.py:24-56 | An empty receptor name raises. A tool that cannot be started raises. A tool that exits with an error gives `None`. In all three cases `prepared_receptor` is unchanged. Success sets `prepared_receptor` to `<in_path>/<receptor stem>.pdbqt` and returns the record. No other field changes. |
| VinaRunner.PrepareFromSmi | pyscreener/docking/vina/runner.py:59-87 | On success `prepared_ligand` is `<in_path>/<name>.pdbqt` and the record is returned. A conversion failure raises and changes nothing. |
| VinaRunner.Prepare | pyscreener/docking/vina/runner.py:17-21 | Each way the receptor step can end is covered. An empty receptor name or a tool that cannot be started raises, and a failing tool gives `None`; in these cases neither file changes. When the receptor succeeds, its file is set; then the ligand conversion either succeeds (the record is returned with the ligand set) or raises (the ligand is unchanged). |
| VinaRunner.RunInvocation | pyscreener/docking/vina/runner.py:148-160 | `run`'s argv is the program's value, then the eleven options carrying the prepared receptor (or "None"), the prepared ligand, the record's box and cpu count and the out and log files, then the record's extra arguments, in order. The out and log files are named after `<raw receptor stem>_<prepared ligand stem>` under the output path. |
| VinaRunner.DockingResult | pyscreener/docking/vina/runner.py:173-184 | The mapping has exactly the keys smiles, name, node_id and score. name is the ligand file's stem. node_id is the node id with every ':', ',' and '.' deleted and the other characters kept in order. score is `None` exactly when no scores were parsed; otherwise it is `calc_score` of the scores. |
| Strings.RemoveChars | pyscreener/docking/vina/runner.py:182 | A character is in the result exactly when it is in the input and is not one of the deleted characters. The result is no longer than the input. |
| Strings.RemoveCharsAppend | pyscreener/docking/vina/runner.py:182 | Deleting from a concatenation is deleting from each part and concatenating, so the order and the number of the kept characters are preserved. |
| Strings.RemoveCharsOne | pyscreener/docking/vina/runner.py:182 | A single character is kept exactly when it is not one of the deleted characters. |
| Strings.RemoveCharsNoop | pyscreener/docking/vina/runner.py:182 | Deleting characters that do not occur changes nothing. So stripping the node id twice is the same as stripping it once. |
| VinaRunner.Run | pyscreener/docking/vina/runner.py:139-186 | Without a prepared ligand, it raises and changes nothing. A docking program that cannot be started raises and changes nothing. Otherwise, whether the program exits cleanly or with an error, it returns the parse of the log named by the invocation built from the record, and stores `DockingResult` in `result`. After success `score` is defined and is `None` exactly when the returned scores are `None`. No other field changes. |
| VinaRunner.DockAndRecord | pyscreener/docking/vina/runner.py:162-186 | For a given invocation, a program that cannot be started raises and leaves `result` unchanged. Otherwise the log the invocation names is parsed and the result mapping stored. |
| VinaRunner.RunRecordsLigandName | pyscreener/docking/vina/runner.py:148-149 | After `prepare_from_smi`, the name `run` records is the record's own `name`, for a non-empty name without '/'. |
| Strings.SplitYieldsWords | pyscreener/docking/vina/runner.py:279 | `str.split()` yields only non-empty, whitespace-free words. |
| Strings.SplitUnwords | pyscreener/docking/vina/runner.py:279 | Splitting words joined by single spaces gives the words back. |
| Paths.AsPath | pyscreener/docking/vina/data.py:109-110 | `Path(s)` is never empty and leaves a non-empty path in normal form unchanged. |
| Paths.NameIsFinalComponent | pyscreener/docking/vina/runner.py:41 | `.name` has no '/', is a suffix of the path, and is preceded by a '/' when it is not the whole path. |
| Paths.Stem | pyscreener/docking/vina/runner.py:229 | A stem has no '/', and it is non-empty when the path's name is. |
| Paths.JoinIsPath | pyscreener/docking/vina/runner.py:41 | `dir / name` ends in `name`. An absolute `name` is the whole result. A relative one follows `dir` and a '/', unless `dir` is the current directory. |
| Paths.NameOfJoin | pyscreener/docking/vina/runner.py:41 | The name of `dir / file` is `file`. |
| Paths.StemOfJoin | pyscreener/docking/vina/runner.py:126 | The stem of `dir / (base + suffix)` is `base`, for a suffix such as ".pdbqt". |

## Left out

- External programs are not modelled: the receptor preparation tool, openbabel/pybel and the docking binary. The tool and the binary are parameters that succeed, exit with an error, or cannot be started. Openbabel is a parameter that succeeds or fails; it runs in-process, so it has no "cannot be started" case. Molecule reading, 3D generation, hydrogens, charges and PDBQT writing are not modelled, and neither are `mol.write()` SMILES or the structure-file reader.
- File I/O, the stderr messages and the `ray` node id are not modelled. The log file is a function from path to lines, and the node id is a string parameter.
- `float()`, `str(float)` and `shlex.split` are abstract functions: `parseNum`, the box coordinates as text, and `shlexSplit`. No floating-point reasoning is done.
- `utils.calc_score` is an uninterpreted parameter, and the `ScoreMode` reductions are not modelled. That code is not part of this model.
- `run` ignores a non-zero exit status of the docking program, as the source does. It only prints, which is not modelled.
- Paths are strings in normal form. `Path(...)` normalisation is modelled only for the empty path; doubled and trailing separators and `.` components are not. Joining with an absolute name, which discards the directory, is modelled.
- `Strings.Lower` is ASCII lower-casing only, which is all the enum names need.
- VinaRunner.PrepareFromFile: the offset is a natural number. Negative offsets and the sign in the padded format are not modelled.
- VinaRunner.Width: `log10` is taken as exact. The source uses floating point, whose `log10` of a total just above a power of ten can round down to that power. For example `log10(10**15 + 1)` is 15.0, which gives width 16 where the exact ceiling gives 17. No floating-point rounding is modelled.
- VinaRunner.Run: the source calls `parse_log_file`, but the method is `parse_logfile` (runner.py:173 and 247), so as written every run raises AttributeError. The model calls the parser that exists.
- VinaRunner.Prepare: the source calls a nonexistent `prepare_ligand` (runner.py:19). The model calls `prepare_from_smi`. When the receptor step returns `None`, the source goes on with `None` as the record; the model stops and returns `None`.
- VinaRunner.ParseLogfile: models the parser as intended, reading the rows while the file is open and giving `None` for a log that cannot be opened. The source as written never returns; this is the first row under Findings.
- VinaRunner.ParseLogRowsAsWritten: only the row loop is as written; the file is read as intended. This exposes the short-row IndexError, which as written is hidden behind the closed-file error.
- VinaData.VinaCalculationData.WithDefaults: a trailing comma makes the default of `prepared_ligand` the tuple `(None,)` (data.py:103). The model uses `None`, as the annotation intends.
- VinaRunner.PrepareReceptor: a receptor with an empty name raises, as `with_suffix` does. Other `with_suffix` errors on unusual names are not modelled.
- pyscreener/args.py (command-line option declarations) and pyscreener/docking/dock/metadata.py (a parameter record) are not part of this model. They hold no logic of the docking layer.

## Findings

| source | as written | input that shows it | evidently intended | confidence | as-written member | corrected member |
|---|---|---|---|---|---|---|
| pyscreener/docking/vina/runner.py:264-277 | The rows are read after the `with` block. On a log that opened, `takewhile` reads the closed file and raises ValueError. On a log that could not be opened, `score_lines` is unbound and the loop raises UnboundLocalError. Neither is caught, so the parser never returns. | Log lines `[TABLE_BORDER, "1 -7.5"]`: as written it raises; as intended it gives `[-7.5]`. | Read the rows inside the `with` block, and give `None` when the file cannot be opened. | not executed | VinaRunner.ParseLogAsWritten, VinaRunner.OpenedLogRaises | VinaRunner.ParseLog, VinaRunner.ParseLogfile |
| pyscreener/docking/vina/runner.py:278-281 | `float(line.split()[1])` raises IndexError on a row with fewer than two words. Only ValueError is caught, so the row loop crashes. As written this is hidden behind the closed-file error above; it appears once the file is read as intended. | Log lines `[TABLE_BORDER, ""]`, i.e. a blank line after the border. | Skip a row that has no second word, like a row whose second word is not a number. | not executed | VinaRunner.ParseLogRowsAsWritten, VinaRunner.ShortRowRaises | VinaRunner.ParseLog, VinaRunner.ParseLogfile |
| pyscreener/docking/vina/runner.py:115 | `ceil(log10(len(mols) + offset))` raises ValueError when the file has no molecules and the offset is 0. | An empty structure file with `offset = 0`. | Return an empty list of pairs. | not executed | VinaRunner.LigandFilesAsWritten, VinaRunner.EmptyFileRaises | VinaRunner.LigandFiles, VinaRunner.PrepareFromFile |

=== FILE: data.dfy ===
/**
 * The Vina-family calculation record: which docking program to run, the docking box, the
 * paths it reads and writes, and the mutable state the runner fills in later (the prepared
 * input files and the result mapping), with the `score` accessor over that result.
 */
module VinaData {
  import opened Wrappers
  import Strings
  import Paths

  /** The Vina-family docking programs. */
  datatype Software = Vina | PsoVina | QVina | Smina {

    /** The enum member's declared name. */
    function MemberName(): string {
      match this
      case Vina => "VINA"
      case PsoVina => "PSOVINA"
      case QVina => "QVINA"
      case Smina => "SMINA"
    }

    /** The member's value, which is also the program's executable name. */
    function Value(): (v: string)
      ensures v != [] && v[0] != '-'
    {
      match this
      case Vina => "vina"
      case PsoVina => "psovina"
      case QVina => "qvina"
      case Smina => "smina"
    }
  }

  /** Every member's value is its name in lower case, so distinct members have distinct values. */
  lemma {:induction false} ValueIsLowerName(s: Software, t: Software)
    ensures s.Value() == Strings.Lower(s.MemberName())
    ensures s != t ==> s.Value() != t.Value()
  {
  }

  /** The policy that reduces conformer scores to one score; its reductions are not part of this model. */
  datatype ScoreMode = Best | Average | Boltzmann | TopK

  /** The three coordinates of a docking-box vector, each as the text `str(float)` gives it. */
  datatype Box = Box(x: string, y: string, z: string)

  /** The values the result mapping holds: text, a number, or `None`. */
  datatype Field = Text(text: string) | Number(number: real) | NoneValue

  /** What reading `score` gives: one of its two exceptions or the stored score. */
  datatype ScoreOutcome = NotSimulatedError | InvalidResultError | Scored(score: Field)

  const ScoreKey := "score"

  /** The default docking-box size, (10., 10., 10.). */
  const DefaultSize := Box("10.0", "10.0", "10.0")

  class VinaCalculationData {
    var smi: string
    var receptor: string
    var software: Software
    var center: Box
    var size: Box
    var ncpu: int
    var extra: seq<string>
    var name: string
    var inputFile: Option<string>
    var inPath: string
    var outPath: string
    var scoreMode: ScoreMode
    var k: int
    var preparedLigand: Option<string>
    var preparedReceptor: Option<string>
    var result: Option<map<string, Field>>

    /**
     * The dataclass initialiser followed by `__post_init__`: `extra` becomes its shell-style
     * token list (`shlexSplit`), or the empty list when it is absent or empty, and the two
     * directories become paths; every other field keeps the value given.
     */
    constructor (smi: string, receptor: string, software: Software, center: Box, size: Box,
                 ncpu: int, extra: Option<string>, name: string, inputFile: Option<string>,
                 inPath: string, outPath: string, scoreMode: ScoreMode, k: int,
                 preparedLigand: Option<string>, preparedReceptor: Option<string>,
                 result: Option<map<string, Field>>, shlexSplit: string -> seq<string>)
      ensures this.smi == smi && this.receptor == receptor && this.software == software
      ensures this.center == center && this.size == size && this.ncpu == ncpu
      ensures extra.None? || extra == Some("") ==> this.extra == []
      ensures extra.Some? && extra.value != "" ==> this.extra == shlexSplit(extra.value)
      ensures this.name == name && this.inputFile == inputFile
      ensures this.inPath == Paths.AsPath(inPath) && this.outPath == Paths.AsPath(outPath)
      ensures this.scoreMode == scoreMode && this.k == k
      ensures this.preparedLigand == preparedLigand && this.preparedReceptor == preparedReceptor
      ensures this.result == result
    {
      this.smi, this.receptor, this.software, this.center := smi, receptor, software, center;
      this.size, this.ncpu, this.name, this.inputFile := size, ncpu, name, inputFile;
      this.scoreMode, this.k := scoreMode, k;
      this.preparedLigand, this.preparedReceptor, this.result := preparedLigand, preparedReceptor, result;
      this.extra := if extra.Some? && extra.value != "" then shlexSplit(extra.value) else [];
      this.inPath := Paths.AsPath(inPath);
      this.outPath := Paths.AsPath(outPath);
    }

    /**
     * The record built from the four required fields, every other field at its default; it
     * has not been simulated.
     */
    constructor WithDefaults(smi: string, receptor: string, software: Software, center: Box)
      ensures this.smi == smi && this.receptor == receptor && this.software == software
      ensures this.center == center && size == DefaultSize && ncpu == 1 && extra == []
      ensures name == "ligand" && inputFile == None && inPath == "." && outPath == "."
      ensures scoreMode == Best && k == 1
      ensures preparedLigand == None && preparedReceptor == None && result == None
      ensures Score() == NotSimulatedError
    {
      this.smi, this.receptor, this.software, this.center := smi, receptor, software, center;
      size, ncpu, extra, name, inputFile := DefaultSize, 1, [], "ligand", None;
      inPath, outPath := ".", ".";
      scoreMode, k := Best, 1;
      preparedLigand, preparedReceptor, result := None, None, None;
    }

    /**
     * The `score` property: NotSimulatedError exactly when there is no result yet,
     * InvalidResultError exactly when the result has no "score" entry, and otherwise the
     * stored entry as it is, which may be `None`. Reading it changes nothing.
     */
    function Score(): (r: ScoreOutcome)
      reads this
      ensures r.NotSimulatedError? <==> result.None?
      ensures r.InvalidResultError? <==> result.Some? && ScoreKey !in result.value
      ensures r.Scored? ==> result.Some? && ScoreKey in result.value && r.score == result.value[ScoreKey]
    {
      match result
      case None => NotSimulatedError
      case Some(m) => if ScoreKey in m then Scored(m[ScoreKey]) else InvalidResultError
    }
  }
}

=== FILE: paths.dfy ===
/**
 * The parts of `pathlib.Path` the docking layer uses, with paths as strings in normal form
 * (no doubled or trailing separators, no `.` components): `Path(s)`, `p.name`, `p.stem`,
 * `p.with_suffix(...)` and `dir / name`.
 */
module Paths {

  /** `Path(s)` of a path in normal form: only the empty path changes, to ".". */
  function AsPath(s: string): (p: string)
    ensures p != ""
    ensures s != "" ==> p == s
  {
    if s == "" then "." else s
  }

  /** Everything after the last '/' of p (all of p if it has none). */
  function AfterLastSlash(p: string): (n: string)
    ensures '/' !in n
    ensures |n| <= |p| && p[|p| - |n|..] == n
    ensures |n| < |p| ==> p[|p| - |n| - 1] == '/'
  {
    if p == [] || p[|p| - 1] == '/' then []
    else
      var n' := AfterLastSlash(p[..|p| - 1]);
      assert p[..|p| - 1][|p| - 1 - |n'|..] == p[|p| - 1 - |n'|..|p| - 1];
      n' + [p[|p| - 1]]
  }

  /** `p.name`: the final component; the current directory "." has none. */
  function Name(p: string): string {
    if p == "." then "" else AfterLastSlash(p)
  }

  /** The name of a path holds no '/' and ends the path, right after its last '/'. */
  lemma {:induction false} NameIsFinalComponent(p: string)
    ensures '/' !in Name(p) && |Name(p)| <= |p|
    ensures p != "." ==> p[|p| - |Name(p)|..] == Name(p)
    ensures p != "." && |Name(p)| < |p| ==> p[|p| - |Name(p)| - 1] == '/'
  {
  }

  /** The index of the last '.' in s, or -1 (`s.rfind('.')`). */
  function LastDot(s: string): (i: int)
    ensures -1 <= i < |s|
    ensures i >= 0 ==> s[i] == '.'
    ensures forall j :: i < j < |s| ==> s[j] != '.'
  {
    if s == [] then -1
    else if s[|s| - 1] == '.' then |s| - 1
    else LastDot(s[..|s| - 1])
  }

  /** `p.stem`: the name without its final suffix; a dot that starts or ends the name does not begin a suffix. */
  function Stem(p: string): (s: string)
    ensures '/' !in s
    ensures Name(p) != "" ==> s != ""
  {
    var n := Name(p);
    var i := LastDot(n);
    if 0 < i < |n| - 1 then n[..i] else n
  }

  /**
   * `dir / name`: an absolute `name` (one starting with '/') replaces `dir`; a relative one is
   * appended to `dir` after a single separator, or stands alone when `dir` is the current
   * directory.
   */
  function Join(dir: string, name: string): string {
    if name != "" && name[0] == '/' then name
    else if dir == "" || dir == "." then name
    else if dir[|dir| - 1] == '/' then dir + name
    else dir + "/" + name
  }

  /**
   * A joined path ends in `name`. An absolute `name` is the whole result; a relative one follows
   * `dir` (unless `dir` is the current directory) and a separator.
   */
  lemma {:induction false} JoinIsPath(dir: string, name: string)
    ensures name != "" && name[0] == '/' ==> Join(dir, name) == name
    ensures |name| <= |Join(dir, name)| && Join(dir, name)[|Join(dir, name)| - |name|..] == name
    ensures (name == "" || name[0] != '/') && dir != "" && dir != "." ==>
      && |dir| <= |Join(dir, name)| && |name| < |Join(dir, name)|
      && Join(dir, name)[..|dir|] == dir && Join(dir, name)[|Join(dir, name)| - |name| - 1] == '/'
  {
  }

  lemma {:induction false} AfterLastSlashAppend(s: string, x: string)
    requires '/' !in x
    ensures AfterLastSlash(s + x) == AfterLastSlash(s) + x
    decreases |x|
  {
    if x != [] {
      var x' := x[..|x| - 1];
      assert (s + x)[..|s + x| - 1] == s + x';
      AfterLastSlashAppend(s, x');
      assert x == x' + [x[|x| - 1]];
    } else {
      assert s + x == s;
    }
  }

  /** The name of a file joined onto a directory is the file's own name. */
  lemma {:induction false} NameOfJoin(dir: string, file: string)
    requires file != "" && file != "." && '/' !in file
    ensures Name(Join(dir, file)) == file
  {
    assert file[0] != '/';
    if dir == "" || dir == "." {
      AfterLastSlashAppend("", file);
      assert "" + file == file;
    } else if dir[|dir| - 1] == '/' {
      AfterLastSlashAppend(dir, file);
    } else {
      assert Join(dir, file) == dir + "/" + file;
      AfterLastSlashAppend(dir + "/", file);
      assert AfterLastSlash(dir + "/") == [];
    }
  }

  /** A file suffix such as ".pdbqt": a dot, then a non-empty extension without dots or separators. */
  predicate IsSuffix(suffix: string) {
    |suffix| >= 2 && suffix[0] == '.' && '/' !in suffix && '.' !in suffix[1..]
  }

  /**
   * Stripping an added suffix: the stem of `dir / (base + suffix)`, for a suffix like ".pdbqt"
   * (a dot and a dot-free extension), is base.
   */
  lemma {:induction false} StemOfJoin(dir: string, base: string, suffix: string)
    requires base != "" && '/' !in base
    requires IsSuffix(suffix)
    ensures Stem(Join(dir, base + suffix)) == base
  {
    var file := base + suffix;
    assert '/' !in file by {
      assert forall c :: c in file ==> c in base || c in suffix;
    }
    NameOfJoin(dir, file);
    var i := LastDot(file);
    assert file[|base|] == '.';
    assert i >= |base|;
    assert forall j :: |base| < j < |file| ==> file[j] == suffix[1..][j - |base| - 1];
    assert file[..|base|] == base;
  }
}

=== FILE: runner.dfy ===
/**
 * The Vina-family runner: the docking program's argument vector, the parser for its log,
 * the file naming used when preparing ligands from a multi-molecule file, and the steps
 * that prepare inputs and run a calculation, each updating the calculation record in place.
 *
 * The external programs (the receptor preparation tool, openbabel, the docking binary) are
 * parameters. The receptor preparation tool and the docking binary map their argument vector
 * to how the program ends (`ToolRun`: success, an error exit, or a program that cannot be
 * started); openbabel is a predicate telling whether the conversion succeeds; the log file the
 * docking run leaves behind is read as lines.
 */
module VinaRunner {
  import opened Wrappers
  import opened Strings
  import opened Paths
  import opened VinaData

  /** The exceptions the runner's operations raise. */
  datatype Error =
    | EmptyReceptorName       // `with_suffix` on a receptor path with an empty name (ValueError)
    | LigandNotPrepared       // `Path(None)` in `run` before the ligand was prepared (TypeError)
    | LigandConversionFailed  // openbabel could not read the SMILES string or write the PDBQT file
    | ShortScoreLine          // `line.split()[1]` on a table row of fewer than two words (IndexError)
    | LogOfZero               // `log10(0)` for an empty structure file and offset 0 (ValueError)
    | ProgramNotStarted       // `sp.run` on a program that cannot be started (FileNotFoundError, OSError)
    | ScoreLinesUnbound       // `score_lines` read after opening the log failed (UnboundLocalError)
    | ReadClosedFile          // the log's lines read after the `with` block closed it (ValueError)

  /** How a call to an external program ends: exit status 0, another exit status, or no start at all. */
  datatype ToolRun = Succeeded | Failed | NotStarted

  // ---------------------------------------------------------------------------------------
  // Invocation builder (build_argv)

  /** The docking program's argument vector and the two files it will write. */
  datatype Invocation = Invocation(argv: seq<string>, out: string, log: string)

  /** The option `--key=value`. */
  function Flag(key: string, value: string): string {
    "--" + key + "=" + value
  }

  /** `extra or []` */
  function OrEmpty(extra: Option<seq<string>>): seq<string> {
    match extra
    case None => []
    case Some(e) => e
  }

  /**
   * `name or (Path(receptor).stem + '_' + Path(ligand).stem)`: a given non-empty name is kept, and
   * `None` or "" falls back to the two stems; either way the base name is never empty.
   */
  function BaseName(name: Option<string>, receptor: string, ligand: string): (base: string)
    ensures base != ""
    ensures name.Some? && name.value != "" ==> base == name.value
    ensures name.None? || name.value == "" ==> base == Stem(receptor) + "_" + Stem(ligand)
  {
    if name.Some? && name.value != "" then name.value else Stem(receptor) + "_" + Stem(ligand)
  }

  /** The last character of a path joined onto a directory is the last character of the file. */
  lemma {:induction false} JoinEndsWith(dir: string, file: string)
    requires file != ""
    ensures Join(dir, file) != "" && Join(dir, file)[|Join(dir, file)| - 1] == file[|file| - 1]
  {
  }

  /** The option keys of argument vector entries 1 to 11, in order. */
  const OptionKeys: seq<string> := ["receptor", "ligand", "center_x", "center_y", "center_z",
                                    "size_x", "size_y", "size_z", "cpu", "out", "log"]

  /** The values `build_argv` gives those options, in the same order. */
  function OptionValues(ligand: string, receptor: string, center: Box, size: Box, ncpu: int,
                        out: string, log: string): (values: seq<string>)
    ensures |values| == |OptionKeys|
  {
    [receptor, ligand, center.x, center.y, center.z, size.x, size.y, size.z, IntToString(ncpu), out, log]
  }

  /**
   * One option per key, in order: the docking program reads the i-th entry back as the i-th key
   * with the i-th value, whatever the value holds, as long as the key has no '='.
   */
  function Options(keys: seq<string>, values: seq<string>): (opts: seq<string>)
    requires |keys| == |values|
    ensures |opts| == |keys|
    ensures forall i :: 0 <= i < |keys| && '=' !in keys[i] ==> ReadFlag(opts[i]) == Some((keys[i], values[i]))
  {
    FlagsReadBack(keys, values);
    seq(|keys|, i requires 0 <= i < |keys| => Flag(keys[i], values[i]))
  }

  /** Every option whose key has no '=' reads back as its key and value. */
  lemma {:induction false} FlagsReadBack(keys: seq<string>, values: seq<string>)
    requires |keys| == |values|
    ensures forall i :: 0 <= i < |keys| && '=' !in keys[i] ==> ReadFlag(Flag(keys[i], values[i])) == Some((keys[i], values[i]))
  {
    forall i | 0 <= i < |keys| && '=' !in keys[i]
      ensures ReadFlag(Flag(keys[i], values[i])) == Some((keys[i], values[i]))
    {
      ReadFlagOfFlag(keys[i], values[i]);
    }
  }

  /** The docking output file: `<path>/<software>_<base>_out.pdbqt`. */
  function OutFile(path: string, software: Software, base: string): string {
    Join(path, software.Value() + "_" + base + "_out.pdbqt")
  }

  /** The docking log file: `<path>/<software>_<base>.log`. */
  function LogFile(path: string, software: Software, base: string): string {
    Join(path, software.Value() + "_" + base + ".log")
  }

  /**
   * `build_argv`: the program name, then receptor, ligand, the box centre and size, the cpu
   * count and the out and log files as options, then the extra arguments as given. The out and
   * log files are named after the program and the base name (the given name, or
   * `<receptor stem>_<ligand stem>` when none or an empty one is given) under `path`, and
   * never coincide.
   */
  function BuildArgv(ligand: string, receptor: string, software: Software, center: Box, size: Box,
                     ncpu: int, name: Option<string>, path: string, extra: Option<seq<string>>): (r: Invocation)
    ensures r.argv == [software.Value()]
                      + Options(OptionKeys, OptionValues(ligand, receptor, center, size, ncpu, r.out, r.log))
                      + OrEmpty(extra)
    ensures name.Some? && name.value != "" ==>
      r.out == OutFile(path, software, name.value) && r.log == LogFile(path, software, name.value)
    ensures name.None? || name.value == "" ==>
      && r.out == OutFile(path, software, Stem(receptor) + "_" + Stem(ligand))
      && r.log == LogFile(path, software, Stem(receptor) + "_" + Stem(ligand))
    ensures r.out != r.log
  {
    var base := BaseName(name, receptor, ligand);
    JoinEndsWith(path, software.Value() + "_" + base + "_out.pdbqt");
    JoinEndsWith(path, software.Value() + "_" + base + ".log");
    var out := OutFile(path, software, base);
    var log := LogFile(path, software, base);
    var opts := Options(OptionKeys, OptionValues(ligand, receptor, center, size, ncpu, out, log));
    Invocation([software.Value()] + opts + OrEmpty(extra), out, log)
  }

  /** The index of the first c in s, or |s|. */
  function IndexOf(s: string, c: char): (i: nat)
    ensures i <= |s|
    ensures i < |s| ==> s[i] == c
    ensures forall j :: 0 <= j < i ==> s[j] != c
  {
    if s == [] || s[0] == c then 0 else 1 + IndexOf(s[1..], c)
  }

  /** How the docking program reads an option `--key=value`: the key runs up to the first '='. */
  function ReadFlag(arg: string): Option<(string, string)> {
    if |arg| < 2 || arg[..2] != "--" then None
    else
      var rest := arg[2..];
      var i := IndexOf(rest, '=');
      if i == |rest| then None else Some((rest[..i], rest[i + 1..]))
  }

  /** Reading an option back gives its key and value, whatever the value holds. */
  lemma {:induction false} ReadFlagOfFlag(key: string, value: string)
    requires '=' !in key
    ensures ReadFlag(Flag(key, value)) == Some((key, value))
  {
    var arg := Flag(key, value);
    assert arg == "--" + (key + "=" + value);
    var rest := arg[2..];
    assert rest == key + "=" + value;
    assert forall j :: 0 <= j < |key| ==> rest[j] == key[j];
    assert rest[|key|] == '=';
    assert IndexOf(rest, '=') == |key|;
    assert rest[..|key|] == key;
    assert rest[|key| + 1..] == value;
  }

  /** No option key contains '='. */
  lemma {:induction false} OptionKeysHaveNoEquals()
    ensures forall i :: 0 <= i < |OptionKeys| ==> '=' !in OptionKeys[i]
  {
  }

  /**
   * The docking program recovers every input from the argument vector: entry 0 is not an
   * option, entries 1 to 11 carry the eleven keys with the receptor, ligand, box, cpu count and
   * the two output files as values, and the extra arguments follow unchanged.
   */
  lemma {:induction false} ArgvRoundTrip(ligand: string, receptor: string, software: Software, center: Box, size: Box,
                      ncpu: int, name: Option<string>, path: string, extra: Option<seq<string>>)
    ensures var r := BuildArgv(ligand, receptor, software, center, size, ncpu, name, path, extra);
      var values := OptionValues(ligand, receptor, center, size, ncpu, r.out, r.log);
      && |r.argv| == 1 + |OptionKeys| + |OrEmpty(extra)|
      && ReadFlag(r.argv[0]) == None
      && (forall i :: 0 <= i < |OptionKeys| ==> ReadFlag(r.argv[1 + i]) == Some((OptionKeys[i], values[i])))
      && r.argv[1 + |OptionKeys|..] == OrEmpty(extra)
  {
    var r := BuildArgv(ligand, receptor, software, center, size, ncpu, name, path, extra);
    var values := OptionValues(ligand, receptor, center, size, ncpu, r.out, r.log);
    OptionKeysHaveNoEquals();
    VectorReadsBack(software.Value(), OptionKeys, values, OrEmpty(extra));
  }

  /**
   * A program name that is not an option, then one option per key, then extra arguments: the
   * options read back as the keys with their values, in order, and the extras follow unchanged.
   */
  lemma {:induction false} VectorReadsBack(program: string, keys: seq<string>, values: seq<string>, extra: seq<string>)
    requires program != "" && program[0] != '-'
    requires |keys| == |values| && forall i :: 0 <= i < |keys| ==> '=' !in keys[i]
    ensures var argv := [program] + Options(keys, values) + extra;
      && |argv| == 1 + |keys| + |extra|
      && ReadFlag(argv[0]) == None
      && (forall i :: 0 <= i < |keys| ==> ReadFlag(argv[1 + i]) == Some((keys[i], values[i])))
      && argv[1 + |keys|..] == extra
  {
    var opts := Options(keys, values);
    var argv := [program] + opts + extra;
    forall i | 0 <= i < |keys|
      ensures ReadFlag(argv[1 + i]) == Some((keys[i], values[i]))
    {
      assert argv[1 + i] == opts[i];
    }
    assert argv[0] == program;
    ProgramIsNoFlag(program);
    assert argv[1 + |keys|..] == extra;
  }

  /** A word that does not start with '-' is not read as an option. */
  lemma {:induction false} ProgramIsNoFlag(program: string)
    requires program != "" && program[0] != '-'
    ensures ReadFlag(program) == None
  {
    if |program| >= 2 {
      assert program[..2][0] == program[0];
    }
  }

  // ---------------------------------------------------------------------------------------
  // Log parser (parse_logfile)

  /** The border line under the header of a Vina-family result table. */
  const TableBorder := "-----+------------+----------+----------"

  /** The word on the line that follows the result table. */
  const WritingMarker := "Writing"

  /** The index of the first line at or after `from` that contains `pattern`, or |lines|. */
  function FirstContaining(lines: seq<string>, pattern: string, from: nat): (i: nat)
    requires from <= |lines|
    ensures from <= i <= |lines|
    ensures i < |lines| ==> Contains(lines[i], pattern)
    ensures forall j :: from <= j < i ==> !Contains(lines[j], pattern)
    decreases |lines| - from
  {
    if from == |lines| || Contains(lines[from], pattern) then from
    else FirstContaining(lines, pattern, from + 1)
  }

  /** The first match is the line that matches with no match before it from `from` on. */
  lemma {:induction false} FirstContainingIs(lines: seq<string>, pattern: string, from: nat, b: nat)
    requires from <= b <= |lines|
    requires forall j :: from <= j < b ==> !Contains(lines[j], pattern)
    requires b < |lines| ==> Contains(lines[b], pattern)
    ensures FirstContaining(lines, pattern, from) == b
    decreases b - from
  {
    if from < b {
      FirstContainingIs(lines, pattern, from + 1, b);
    }
  }

  /** A line before the first match that does not match itself leaves the first match ahead. */
  lemma {:induction false} FirstContainingStep(lines: seq<string>, pattern: string, from: nat, i: nat)
    requires from <= i < |lines| && !Contains(lines[i], pattern)
    requires i <= FirstContaining(lines, pattern, from)
    ensures i + 1 <= FirstContaining(lines, pattern, from)
  {
  }

  /** The score a table row carries: its second word read as a number, if it has one and it is one. */
  function RowScore(row: string, parseNum: string -> Option<real>): (r: Option<real>)
    ensures |Split(row)| < 2 ==> r.None?
    ensures |Split(row)| >= 2 ==> r == parseNum(Split(row)[1])
  {
    var words := Split(row);
    if |words| < 2 then None else parseNum(words[1])
  }

  function AsSeq(x: Option<real>): seq<real> {
    match x
    case None => []
    case Some(v) => [v]
  }

  /** `RowScore` with the number parser fixed. */
  function RowScorer(parseNum: string -> Option<real>): string -> Option<real> {
    row => RowScore(row, parseNum)
  }

  /** The scores `score` finds in lines[start..end], in line order. */
  function ScoresBetween(lines: seq<string>, start: nat, end: nat, score: string -> Option<real>): seq<real>
    requires start <= end <= |lines|
    decreases end - start
  {
    if end == start then [] else ScoresBetween(lines, start, end - 1, score) + AsSeq(score(lines[end - 1]))
  }

  /** The scores of the rows that carry one, in row order. */
  function RowScores(rows: seq<string>, score: string -> Option<real>): seq<real> {
    ScoresBetween(rows, 0, |rows|, score)
  }

  /**
   * Where the table lies in the lines of a log: its rows are lines[start..end], from just after
   * the first line containing the border up to (not including) the first line after it that
   * contains "Writing"; `None` when no line contains the border.
   */
  function TableBounds(lines: seq<string>): Option<(nat, nat)> {
    var b := FirstContaining(lines, TableBorder, 0);
    if b == |lines| then None else Some((b + 1, FirstContaining(lines, WritingMarker, b + 1)))
  }

  /**
   * The table bounds are the ones `parse_logfile` scans for: there are none exactly when no line
   * holds the border; otherwise the rows start right after the first border line and end before
   * the first "Writing" line after it, or at the end of the log.
   */
  lemma {:induction false} TableBoundsMeans(lines: seq<string>)
    ensures TableBounds(lines).None? <==> forall j :: 0 <= j < |lines| ==> !Contains(lines[j], TableBorder)
    ensures TableBounds(lines).Some? ==> 0 < TableBounds(lines).value.0 <= TableBounds(lines).value.1 <= |lines|
    ensures TableBounds(lines).Some? ==>
      && Contains(lines[TableBounds(lines).value.0 - 1], TableBorder)
      && (forall j :: 0 <= j < TableBounds(lines).value.0 - 1 ==> !Contains(lines[j], TableBorder))
    ensures TableBounds(lines).Some? ==>
      && (forall j :: TableBounds(lines).value.0 <= j < TableBounds(lines).value.1 ==> !Contains(lines[j], WritingMarker))
      && (TableBounds(lines).value.1 < |lines| ==> Contains(lines[TableBounds(lines).value.1], WritingMarker))
  {
  }

  /** The scores of the table rows of a log. */
  function TableScores(lines: seq<string>, score: string -> Option<real>): seq<real> {
    match TableBounds(lines)
    case None => []
    case Some((start, end)) => ScoresBetween(lines, start, end, score)
  }

  /**
   * `parse_logfile` on the lines of a log file (`None` when the file cannot be opened): the
   * scores of the table rows, or `None` when there are none; never an empty list.
   */
  function ParseLog(log: Option<seq<string>>, score: string -> Option<real>): (r: Option<seq<real>>)
    ensures r != Some([])
    ensures log.None? ==> r.None?
  {
    match log
    case None => None
    case Some(lines) =>
      var scores := TableScores(lines, score);
      if scores == [] then None else Some(scores)
  }

  /** The scores of a stretch of lines depend only on the lines in it, not on where it lies. */
  lemma {:induction false} ScoresBetweenShift(lines: seq<string>, off: nat, rows: seq<string>, n: nat,
                                              score: string -> Option<real>)
    requires off + n <= |lines| && n <= |rows|
    requires forall j :: 0 <= j < n ==> lines[off + j] == rows[j]
    ensures ScoresBetween(lines, off, off + n, score) == ScoresBetween(rows, 0, n, score)
  {
    if n > 0 {
      ScoresBetweenShift(lines, off, rows, n - 1, score);
      assert lines[off + n - 1] == rows[n - 1];
    }
  }

  /** A row written as columns separated by spaces carries the number in its second column. */
  lemma {:induction false} RowScoreOfColumns(columns: seq<string>, parseNum: string -> Option<real>)
    requires |columns| >= 2 && forall i :: 0 <= i < |columns| ==> IsWord(columns[i])
    ensures RowScore(Unwords(columns), parseNum) == parseNum(columns[1])
  {
    SplitUnwords(columns);
  }

  /** When every row carries a score, the parsed scores are exactly those scores, in order. */
  lemma {:induction false} ScoresAllParse(rows: seq<string>, n: nat, xs: seq<real>, score: string -> Option<real>)
    requires n <= |rows| && n <= |xs|
    requires forall i :: 0 <= i < n ==> score(rows[i]) == Some(xs[i])
    ensures ScoresBetween(rows, 0, n, score) == xs[..n]
  {
    if n > 0 {
      ScoresAllParse(rows, n - 1, xs, score);
      assert xs[..n] == xs[..n - 1] + [xs[n - 1]];
    }
  }

  /** When every row carries a score, the parsed scores are exactly those scores, in order. */
  lemma {:induction false} RowScoresAllParse(rows: seq<string>, xs: seq<real>, parseNum: string -> Option<real>)
    requires |rows| == |xs|
    requires forall i :: 0 <= i < |rows| ==> RowScore(rows[i], parseNum) == Some(xs[i])
    ensures RowScores(rows, RowScorer(parseNum)) == xs
  {
    ScoresAllParse(rows, |rows|, xs, RowScorer(parseNum));
    assert xs[..|xs|] == xs;
  }

  /** The table rows run from after the first border line to the first "Writing" line after it. */
  lemma {:induction false} TableBoundsIs(lines: seq<string>, b: nat, w: nat)
    requires b < w <= |lines|
    requires forall j :: 0 <= j < b ==> !Contains(lines[j], TableBorder)
    requires Contains(lines[b], TableBorder)
    requires forall j :: b + 1 <= j < w ==> !Contains(lines[j], WritingMarker)
    requires w < |lines| ==> Contains(lines[w], WritingMarker)
    ensures TableBounds(lines) == Some((b + 1, w))
  {
    FirstContainingIs(lines, TableBorder, 0, b);
    FirstContainingIs(lines, WritingMarker, b + 1, w);
  }

  /** A log whose table rows are `rows` parses to their scores, or `None` if there are none. */
  lemma {:induction false} ParseLogOfRows(lines: seq<string>, start: nat, rows: seq<string>, score: string -> Option<real>)
    requires TableBounds(lines) == Some((start, start + |rows|))
    requires forall j :: 0 <= j < |rows| ==> lines[start + j] == rows[j]
    ensures var scores := RowScores(rows, score);
      ParseLog(Some(lines), score) == if scores == [] then None else Some(scores)
  {
    assert TableScores(lines, score) == ScoresBetween(lines, start, start + |rows|, score);
    ScoresBetweenShift(lines, start, rows, |rows|, score);
    assert TableScores(lines, score) == RowScores(rows, score);
  }

  /**
   * Only the table counts: for a log made of lines before the border, a border line, rows
   * without "Writing", then either the end or a "Writing" line and anything after it, the parse
   * is the scores of those rows (`None` if there are none), whatever the other lines hold.
   */
  lemma {:induction false} ParseLogWindow(pre: seq<string>, border: string, rows: seq<string>, tail: seq<string>,
                                          score: string -> Option<real>)
    requires forall i :: 0 <= i < |pre| ==> !Contains(pre[i], TableBorder)
    requires Contains(border, TableBorder)
    requires forall i :: 0 <= i < |rows| ==> !Contains(rows[i], WritingMarker)
    requires tail == [] || Contains(tail[0], WritingMarker)
    ensures var scores := RowScores(rows, score);
      ParseLog(Some(pre + [border] + rows + tail), score) == if scores == [] then None else Some(scores)
  {
    var lines := pre + [border] + rows + tail;
    var b := |pre|;
    var w := b + 1 + |rows|;
    forall j | 0 <= j < b
      ensures !Contains(lines[j], TableBorder)
    {
      assert lines[j] == pre[j];
    }
    assert lines[b] == border;
    forall j | b + 1 <= j < w
      ensures lines[j] == rows[j - b - 1] && !Contains(lines[j], WritingMarker)
    {
      assert lines[j] == rows[j - b - 1];
    }
    assert w < |lines| ==> lines[w] == tail[0];
    TableBoundsIs(lines, b, w);
    assert forall j :: 0 <= j < |rows| ==> lines[b + 1 + j] == rows[j];
    ParseLogOfRows(lines, b + 1, rows, score);
  }

  /** Without a border line there is no table, so no scores. */
  lemma {:induction false} ParseLogNoBorder(lines: seq<string>, score: string -> Option<real>)
    requires forall i :: 0 <= i < |lines| ==> !Contains(lines[i], TableBorder)
    ensures ParseLog(Some(lines), score) == None
  {
    FirstContainingIs(lines, TableBorder, 0, |lines|);
  }

  /** The first loop of `parse_logfile`: advance to the first line at or after `from` holding `pattern`. */
  method SkipTo(lines: seq<string>, pattern: string, from: nat) returns (i: nat)
    requires from <= |lines|
    ensures i == FirstContaining(lines, pattern, from)
  {
    i := from;
    while i < |lines| && !Contains(lines[i], pattern)
      invariant from <= i <= FirstContaining(lines, pattern, from)
    {
      FirstContainingStep(lines, pattern, from, i);
      i := i + 1;
    }
  }

  /**
   * The second loop of `parse_logfile`: from `start`, collect the score of each line up to the
   * first line containing "Writing"; returns the scores and the index of that line.
   */
  method CollectScores(lines: seq<string>, start: nat, parseNum: string -> Option<real>)
    returns (found: seq<real>, i: nat)
    requires start <= |lines|
    ensures i == FirstContaining(lines, WritingMarker, start)
    ensures found == ScoresBetween(lines, start, i, RowScorer(parseNum))
  {
    i := start;
    found := [];
    while i < |lines| && !Contains(lines[i], WritingMarker)
      invariant start <= i <= FirstContaining(lines, WritingMarker, start)
      invariant found == ScoresBetween(lines, start, i, RowScorer(parseNum))
    {
      // a row whose second word is a number adds it; any other row adds nothing
      var score := RowScore(lines[i], parseNum);
      found := found + AsSeq(score);
      FirstContainingStep(lines, WritingMarker, start, i);
      i := i + 1;
    }
  }

  /**
   * `parse_logfile`: skip lines up to and including the first border line, then collect the
   * score of each line until the first "Writing" line; `None` instead of an empty list.
   */
  method ParseLogfile(log: Option<seq<string>>, parseNum: string -> Option<real>) returns (scores: Option<seq<real>>)
    ensures scores == ParseLog(log, RowScorer(parseNum))
  {
    if log.None? {
      return None;
    }
    var lines := log.value;
    var border := SkipTo(lines, TableBorder, 0);
    if border == |lines| {
      return None;
    }
    var found, end := CollectScores(lines, border + 1, parseNum);
    assert TableBounds(lines) == Some((border + 1, end));
    scores := if found == [] then None else Some(found);
  }

  /** `line.split()[1]` raises IndexError on this row: it has fewer than two words. */
  function ShortRow(row: string): bool {
    |Split(row)| < 2
  }

  /**
   * The scores of lines[start..end] as the parser is written: indexing the second word raises
   * IndexError on a `short` row, and only a ValueError from `float` is skipped.
   */
  function ScoresBetweenAsWritten(lines: seq<string>, start: nat, end: nat, short: string -> bool,
                                  score: string -> Option<real>): (r: Result<seq<real>, Error>)
    requires start <= end <= |lines|
    ensures r.Failure? ==> r.error == ShortScoreLine
    decreases end - start
  {
    if end == start then Success([])
    else
      match ScoresBetweenAsWritten(lines, start, end - 1, short, score)
      case Failure(e) => Failure(e)
      case Success(before) =>
        if short(lines[end - 1]) then Failure(ShortScoreLine)
        else Success(before + AsSeq(score(lines[end - 1])))
  }

  /** As written, the row loop raises exactly when some row is short. */
  lemma {:induction false} ScoresBetweenAsWrittenFails(lines: seq<string>, start: nat, end: nat,
                                                       short: string -> bool, score: string -> Option<real>)
    requires start <= end <= |lines|
    ensures ScoresBetweenAsWritten(lines, start, end, short, score).Failure?
        <==> exists j :: start <= j < end && short(lines[j])
    decreases end - start
  {
    if end > start {
      ScoresBetweenAsWrittenFails(lines, start, end - 1, short, score);
      if short(lines[end - 1]) {
        assert start <= end - 1 < end && short(lines[end - 1]);
      }
    }
  }

  /**
   * `parse_logfile` as written. The `for` over `score_lines` runs after the `with` block: on a
   * log that opened, `takewhile` then reads the closed file and raises ValueError; on a log that
   * did not, `score_lines` was never bound and the loop raises UnboundLocalError. Neither is
   * caught, so the parser never returns.
   */
  function ParseLogAsWritten(log: Option<seq<string>>): (r: Result<Option<seq<real>>, Error>)
    ensures r.Failure?
    ensures r.error == ScoreLinesUnbound <==> log.None?
    ensures r.error == ReadClosedFile <==> log.Some?
  {
    match log
    case None => Failure(ScoreLinesUnbound)
    case Some(_) => Failure(ReadClosedFile)
  }

  /**
   * A log with one scored row after the border: the parser as written raises on it, while the
   * intended parser returns that row's score.
   */
  lemma {:induction false} OpenedLogRaises(parseNum: string -> Option<real>, x: real)
    requires parseNum("-7.5") == Some(x)
    ensures ParseLogAsWritten(Some([TableBorder, "1 -7.5"])) == Failure(ReadClosedFile)
    ensures ParseLog(Some([TableBorder, "1 -7.5"]), RowScorer(parseNum)) == Some([x])
  {
    ScoredRow(parseNum, x);
    BorderIsBorder();
    ParseLogOfOneRow(TableBorder, "1 -7.5", RowScorer(parseNum), x);
  }

  /** A log of a border line and one scored row, with no "Writing" line, parses to that score. */
  lemma {:induction false} ParseLogOfOneRow(border: string, row: string, score: string -> Option<real>, x: real)
    requires Contains(border, TableBorder) && !Contains(row, WritingMarker)
    requires score(row) == Some(x)
    ensures ParseLog(Some([border, row]), score) == Some([x])
  {
    ScoresAllParse([row], 1, [x], score);
    assert [x][..1] == [x];
    ParseLogWindow([], border, [row], [], score);
    WindowOfTwo(border, row);
  }

  /** The row "1 -7.5" carries the score -7.5 and is not the "Writing" line. */
  lemma {:induction false} ScoredRow(parseNum: string -> Option<real>, x: real)
    requires parseNum("-7.5") == Some(x)
    ensures RowScore("1 -7.5", parseNum) == Some(x)
    ensures !Contains("1 -7.5", WritingMarker)
  {
    var columns := ["1", "-7.5"];
    assert IsWord(columns[0]) && IsWord(columns[1]);
    assert Unwords(columns) == "1 -7.5";
    RowScoreOfColumns(columns, parseNum);
  }

  /** The border line contains the border. */
  lemma {:induction false} BorderIsBorder()
    ensures Contains(TableBorder, TableBorder)
  {
    assert OccursAt(TableBorder, TableBorder, 0);
  }

  /** A border followed by one row, with nothing before or after, is the two-line log. */
  lemma {:induction false} WindowOfTwo<T>(border: T, row: T)
    ensures [] + [border] + [row] + [] == [border, row]
  {
  }

  /**
   * `parse_logfile` with the file read as intended but the row loop as written: a log that
   * cannot be opened gives `None`, and a short table row raises IndexError.
   */
  function ParseLogRowsAsWritten(log: Option<seq<string>>, parseNum: string -> Option<real>)
    : (r: Result<Option<seq<real>>, Error>)
    ensures r.Success? ==> r.value != Some([])
  {
    match log
    case None => Success(None)
    case Some(lines) =>
      match TableBounds(lines)
      case None => Success(None)
      case Some((start, end)) =>
        match ScoresBetweenAsWritten(lines, start, end, ShortRow, RowScorer(parseNum))
        case Failure(e) => Failure(e)
        case Success(scores) => Success(if scores == [] then None else Some(scores))
  }

  /** Where no row is short, the scores as written are the scores the parser means. */
  lemma {:induction false} ScoresBetweenAsWrittenAgree(lines: seq<string>, start: nat, end: nat,
                                                       short: string -> bool, score: string -> Option<real>)
    requires start <= end <= |lines|
    requires forall j :: start <= j < end ==> !short(lines[j])
    ensures ScoresBetweenAsWritten(lines, start, end, short, score) == Success(ScoresBetween(lines, start, end, score))
    decreases end - start
  {
    if end > start {
      ScoresBetweenAsWrittenAgree(lines, start, end - 1, short, score);
    }
  }

  /** The row loop as written agrees with the intended one on every log whose table has no short row. */
  lemma {:induction false} ParseLogRowsAsWrittenAgrees(log: Option<seq<string>>, parseNum: string -> Option<real>)
    requires log.Some? && TableBounds(log.value).Some? ==>
      forall j :: TableBounds(log.value).value.0 <= j < TableBounds(log.value).value.1 ==> |Split(log.value[j])| >= 2
    ensures ParseLogRowsAsWritten(log, parseNum) == Success(ParseLog(log, RowScorer(parseNum)))
  {
    if log.Some? && TableBounds(log.value).Some? {
      var (start, end) := TableBounds(log.value).value;
      assert forall j :: start <= j < end ==> !ShortRow(log.value[j]);
      ScoresBetweenAsWrittenAgree(log.value, start, end, ShortRow, RowScorer(parseNum));
    }
  }

  /**
   * A log that ends in a blank line after the border crashes the row loop as written, while the
   * intended parser reports no scores.
   */
  lemma {:induction false} ShortRowRaises(parseNum: string -> Option<real>)
    ensures ParseLogRowsAsWritten(Some([TableBorder, ""]), parseNum) == Failure(ShortScoreLine)
    ensures ParseLog(Some([TableBorder, ""]), RowScorer(parseNum)) == None
  {
    var lines := [TableBorder, ""];
    BorderIsBorder();
    assert FirstContaining(lines, TableBorder, 0) == 0;
    assert !Contains(lines[1], WritingMarker);
    FirstContainingIs(lines, WritingMarker, 1, 2);
    assert TableBounds(lines) == Some((1, 2));
    assert Split(lines[1]) == [];
    assert RowScore(lines[1], parseNum) == None;
    assert ScoresBetween(lines, 1, 2, RowScorer(parseNum)) == [] + [];
  }

  // ---------------------------------------------------------------------------------------
  // Ligand files from a multi-molecule file (prepare_from_file)

  /** A molecule read from a structure file: its title ("" when it has none) and its SMILES text. */
  datatype Molecule = Molecule(title: string, smiles: string)

  /** `ceil(log10(total)) + 1` for total >= 1, in exact integer arithmetic. */
  function Width(total: nat): (w: nat)
    requires total >= 1
    ensures w >= 1 && total <= Pow10(w - 1)
    ensures w >= 2 ==> Pow10(w - 2) < total
  {
    1 + CeilLog10(total)
  }

  /** The input file of ligand `name`: `<dir>/<name>.pdbqt`. */
  function LigandFile(dir: string, name: string): string {
    Join(dir, name + ".pdbqt")
  }

  /** The name of an untitled molecule: `ligand_` and its index zero-padded to `width`. */
  function UntitledName(index: nat, width: nat): string {
    "ligand_" + ZeroPad(index, width)
  }

  /** A titled molecule is named by its title, an untitled one by its index. */
  function LigandName(mol: Molecule, index: nat, width: nat): string {
    if mol.title != "" then mol.title else UntitledName(index, width)
  }

  /**
   * The (SMILES, PDBQT file) pairs `prepare_from_file` returns for the molecules of a file: one
   * per molecule in file order, the i-th named by its title or as untitled molecule i + offset.
   */
  function LigandFiles(mols: seq<Molecule>, path: string, offset: nat): (pairs: seq<(string, string)>)
    ensures |pairs| == |mols|
    ensures forall i :: 0 <= i < |mols| ==> pairs[i].0 == mols[i].smiles
    ensures forall i :: 0 <= i < |mols| && mols[i].title != "" ==>
      pairs[i].1 == LigandFile(AsPath(path), mols[i].title)
    ensures forall i :: 0 <= i < |mols| && mols[i].title == "" ==>
      pairs[i].1 == LigandFile(AsPath(path), UntitledName(i + offset, Width(|mols| + offset)))
  {
    if mols == [] then []
    else
      var width := Width(|mols| + offset);
      seq(|mols|, i requires 0 <= i < |mols| =>
        (mols[i].smiles, LigandFile(AsPath(path), LigandName(mols[i], i + offset, width))))
  }

  /** `list(zip(a, b))` for lists of equal length. */
  function Zip(a: seq<string>, b: seq<string>): (z: seq<(string, string)>)
    requires |a| == |b|
    ensures |z| == |a| && forall i :: 0 <= i < |a| ==> z[i] == (a[i], b[i])
  {
    seq(|a|, i requires 0 <= i < |a| => (a[i], b[i]))
  }

  /** Zipping two lists each extended by one item extends the zip by the pair of those items. */
  lemma {:induction false} ZipSnoc(a: seq<string>, b: seq<string>, x: string, y: string)
    requires |a| == |b|
    ensures Zip(a + [x], b + [y]) == Zip(a, b) + [(x, y)]
  {
    assert forall i :: 0 <= i < |a| ==> (a + [x])[i] == a[i] && (b + [y])[i] == b[i];
  }

  /** The i-th pair of LigandFiles, named as the loop of `prepare_from_file` names it. */
  lemma {:induction false} LigandFileAt(mols: seq<Molecule>, path: string, offset: nat, i: nat)
    requires i < |mols|
    ensures LigandFiles(mols, path, offset)[i] == (mols[i].smiles, LigandFile(AsPath(path),
      if mols[i].title != "" then mols[i].title else UntitledName(i + offset, Width(|mols| + offset))))
  {
  }

  /**
   * `prepare_from_file` after the file is read: name each molecule, collect the SMILES strings
   * and PDBQT file names in two lists and zip them. Writing the PDBQT files is left to openbabel.
   */
  method PrepareFromFile(mols: seq<Molecule>, path: string, offset: nat) returns (pairs: seq<(string, string)>)
    ensures pairs == LigandFiles(mols, path, offset)
  {
    if mols == [] {
      return [];
    }
    var dir := AsPath(path);
    var width := Width(|mols| + offset);
    ghost var spec := LigandFiles(mols, path, offset);
    var smis: seq<string> := [];
    var pdbqts: seq<string> := [];
    for i := 0 to |mols|
      invariant |smis| == |pdbqts| == i
      invariant Zip(smis, pdbqts) == spec[..i]
    {
      var name := if mols[i].title != "" then mols[i].title else UntitledName(i + offset, width);
      LigandFileAt(mols, path, offset, i);
      ZipSnoc(smis, pdbqts, mols[i].smiles, LigandFile(dir, name));
      PrefixSnoc(spec, i);
      smis := smis + [mols[i].smiles];
      pdbqts := pdbqts + [LigandFile(dir, name)];
    }
    assert spec[..|mols|] == spec;
    pairs := Zip(smis, pdbqts);
  }

  /**
   * `prepare_from_file` as written: the width is computed before the loop, so an empty file
   * with offset 0 raises on `log10(0)`.
   */
  function LigandFilesAsWritten(mols: seq<Molecule>, path: string, offset: nat): (r: Result<seq<(string, string)>, Error>)
    ensures r.Failure? <==> |mols| + offset == 0
    ensures r.Failure? ==> r.error == LogOfZero
    ensures r.Success? ==> r.value == LigandFiles(mols, path, offset)
  {
    if |mols| + offset == 0 then Failure(LogOfZero) else Success(LigandFiles(mols, path, offset))
  }

  /** An empty structure file raises as written; the intended result is no ligands. */
  lemma {:induction false} EmptyFileRaises(path: string)
    ensures LigandFilesAsWritten([], path, 0) == Failure(LogOfZero)
    ensures LigandFiles([], path, 0) == []
  {
  }

  /** Every index below the count fits the width: the padding is exact and reads back as the index. */
  lemma {:induction false} PaddedIndex(count: nat, offset: nat, i: nat)
    requires i < count
    ensures var w := Width(count + offset);
      && i + offset < Pow10(w)
      && ZeroPad(i + offset, w) == Fixed(i + offset, w)
      && |ZeroPad(i + offset, w)| == w
      && DecimalValue(ZeroPad(i + offset, w)) == i + offset
  {
    var w := Width(count + offset);
    assert Pow10(w) == 10 * Pow10(w - 1);
    NumDigitsBound(i + offset, w);
    FixedRoundTrip(i + offset, w);
  }

  /** The names of untitled molecules all have the same length. */
  lemma {:induction false} UntitledNamesSameLength(count: nat, offset: nat, i: nat, j: nat)
    requires i < count && j < count
    ensures var w := Width(count + offset);
      |UntitledName(i + offset, w)| == |UntitledName(j + offset, w)| == 7 + w
  {
    PaddedIndex(count, offset, i);
    PaddedIndex(count, offset, j);
  }

  /** The names of untitled molecules sort as strings in file order. */
  lemma {:induction false} UntitledNamesSorted(count: nat, offset: nat, i: nat, j: nat)
    requires i < j < count
    ensures StrLess(UntitledName(i + offset, Width(count + offset)), UntitledName(j + offset, Width(count + offset)))
  {
    PaddedIndex(count, offset, i);
    PaddedIndex(count, offset, j);
    PaddedNamesOrder(i + offset, j + offset, Width(count + offset));
  }

  /** Names padded to a common width without truncation compare as their indices. */
  lemma {:induction false} PaddedNamesOrder(x: nat, y: nat, w: nat)
    requires x < y < Pow10(w)
    requires ZeroPad(x, w) == Fixed(x, w) && ZeroPad(y, w) == Fixed(y, w)
    ensures StrLess(UntitledName(x, w), UntitledName(y, w))
  {
    FixedOrder(x, y, w);
    PrefixKeepsOrder("ligand_", Fixed(x, w), Fixed(y, w));
  }

  /** The ligand named by a file written under `dir` reads back from the file's stem. */
  lemma {:induction false} LigandFileStem(dir: string, name: string)
    requires name != "" && '/' !in name
    ensures Stem(LigandFile(dir, name)) == name
  {
    PdbqtIsSuffix();
    StemOfJoin(dir, name, ".pdbqt");
  }

  lemma {:induction false} PdbqtIsSuffix()
    ensures IsSuffix(".pdbqt")
  {
    assert ".pdbqt"[1..] == "pdbqt";
  }

  // ---------------------------------------------------------------------------------------
  // Preparing the inputs (prepare_receptor, prepare_from_smi, prepare)

  /**
   * The prepared receptor file: the receptor's name with its suffix replaced by ".pdbqt", under
   * `inPath`.
   */
  function ReceptorPdbqt(inPath: string, receptor: string): string {
    Join(inPath, Stem(receptor) + ".pdbqt")
  }

  /** The prepared receptor file's name is the receptor's stem with the suffix ".pdbqt". */
  lemma {:induction false} ReceptorPdbqtName(inPath: string, receptor: string)
    ensures Name(ReceptorPdbqt(inPath, receptor)) == Stem(receptor) + ".pdbqt"
  {
    NameOfJoin(inPath, Stem(receptor) + ".pdbqt");
  }

  /** The receptor preparation tool's argument vector. */
  function ReceptorArgv(receptor: string, pdbqt: string): (argv: seq<string>)
    ensures |argv| == 5 && argv[0] == "prepare_receptor" && argv[1] == "-r" && argv[3] == "-o"
    ensures argv[2] == receptor && argv[4] == pdbqt
  {
    ["prepare_receptor", "-r", receptor, "-o", pdbqt]
  }

  /** The prepared receptor file keeps the receptor's stem: only the suffix and directory change. */
  lemma {:induction false} ReceptorPdbqtStem(inPath: string, receptor: string)
    requires Name(receptor) != ""
    ensures Stem(ReceptorPdbqt(inPath, receptor)) == Stem(receptor)
  {
    PdbqtIsSuffix();
    StemOfJoin(inPath, Stem(receptor), ".pdbqt");
  }

  /**
   * `prepare_receptor`: run the preparation tool on the receptor, writing its PDBQT file under
   * the input directory. On success the record holds that file and is returned; when the tool
   * exits with an error the result is `None` and the record is unchanged. A receptor path with
   * an empty name raises, and so does a tool that cannot be started (only `SubprocessError` is
   * caught).
   */
  method PrepareReceptor(v: VinaCalculationData, tool: seq<string> -> ToolRun)
    returns (r: Result<Option<VinaCalculationData>, Error>)
    modifies v`preparedReceptor
    ensures Name(v.receptor) == "" ==>
      r == Failure(EmptyReceptorName) && v.preparedReceptor == old(v.preparedReceptor)
    ensures Name(v.receptor) != "" && tool(ReceptorArgv(v.receptor, ReceptorPdbqt(v.inPath, v.receptor))) == NotStarted ==>
      r == Failure(ProgramNotStarted) && v.preparedReceptor == old(v.preparedReceptor)
    ensures Name(v.receptor) != "" && tool(ReceptorArgv(v.receptor, ReceptorPdbqt(v.inPath, v.receptor))) == Failed ==>
      r == Success(None) && v.preparedReceptor == old(v.preparedReceptor)
    ensures Name(v.receptor) != "" && tool(ReceptorArgv(v.receptor, ReceptorPdbqt(v.inPath, v.receptor))) == Succeeded ==>
      r == Success(Some(v)) && v.preparedReceptor == Some(ReceptorPdbqt(v.inPath, v.receptor))
  {
    if Name(v.receptor) == "" {
      return Failure(EmptyReceptorName);
    }
    var pdbqt := ReceptorPdbqt(v.inPath, v.receptor);
    var argv := ReceptorArgv(v.receptor, pdbqt);
    var run := tool(argv);
    if run == NotStarted {
      return Failure(ProgramNotStarted);
    }
    if run == Failed {
      return Success(None);
    }
    v.preparedReceptor := Some(pdbqt);
    return Success(Some(v));
  }

  /**
   * `prepare_from_smi`: openbabel converts the SMILES string into `<inPath>/<name>.pdbqt`; the
   * record then holds that file. When openbabel cannot read the string or write the file, it
   * raises and the record is unchanged.
   */
  method PrepareFromSmi(v: VinaCalculationData, openbabel: (string, string) -> bool)
    returns (r: Result<VinaCalculationData, Error>)
    modifies v`preparedLigand
    ensures openbabel(v.smi, LigandFile(v.inPath, v.name)) ==>
      r == Success(v) && v.preparedLigand == Some(LigandFile(v.inPath, v.name))
    ensures !openbabel(v.smi, LigandFile(v.inPath, v.name)) ==>
      r == Failure(LigandConversionFailed) && v.preparedLigand == old(v.preparedLigand)
  {
    var pdbqt := LigandFile(v.inPath, v.name);
    if !openbabel(v.smi, pdbqt) {
      return Failure(LigandConversionFailed);
    }
    v.preparedLigand := Some(pdbqt);
    return Success(v);
  }

  /**
   * `prepare`: the receptor, then the ligand from its SMILES string. When the receptor step
   * raises or gives `None`, the ligand is not prepared; when the ligand step raises, the
   * receptor stays prepared.
   */
  method Prepare(v: VinaCalculationData, tool: seq<string> -> ToolRun, openbabel: (string, string) -> bool)
    returns (r: Result<Option<VinaCalculationData>, Error>)
    modifies v`preparedReceptor, v`preparedLigand
    ensures Name(v.receptor) == "" ==>
      && r == Failure(EmptyReceptorName)
      && v.preparedReceptor == old(v.preparedReceptor) && v.preparedLigand == old(v.preparedLigand)
    ensures Name(v.receptor) != "" && tool(ReceptorArgv(v.receptor, ReceptorPdbqt(v.inPath, v.receptor))) == NotStarted ==>
      && r == Failure(ProgramNotStarted)
      && v.preparedReceptor == old(v.preparedReceptor) && v.preparedLigand == old(v.preparedLigand)
    ensures Name(v.receptor) != "" && tool(ReceptorArgv(v.receptor, ReceptorPdbqt(v.inPath, v.receptor))) == Failed ==>
      && r == Success(None)
      && v.preparedReceptor == old(v.preparedReceptor) && v.preparedLigand == old(v.preparedLigand)
    ensures Name(v.receptor) != "" && tool(ReceptorArgv(v.receptor, ReceptorPdbqt(v.inPath, v.receptor))) == Succeeded ==>
      && v.preparedReceptor == Some(ReceptorPdbqt(v.inPath, v.receptor))
      && (openbabel(v.smi, LigandFile(v.inPath, v.name)) ==>
            r == Success(Some(v)) && v.preparedLigand == Some(LigandFile(v.inPath, v.name)))
      && (!openbabel(v.smi, LigandFile(v.inPath, v.name)) ==>
            r == Failure(LigandConversionFailed) && v.preparedLigand == old(v.preparedLigand))
  {
    var receptor := PrepareReceptor(v, tool);
    if receptor.Failure? {
      return Failure(receptor.error);
    }
    if receptor.value.None? {
      return Success(None);
    }
    var ligand := PrepareFromSmi(v, openbabel);
    if ligand.Failure? {
      return Failure(ligand.error);
    }
    return Success(Some(v));
  }

  // ---------------------------------------------------------------------------------------
  // Running a calculation (run)

  /** The keys of the result mapping `run` stores. */
  const SmilesKey := "smiles"
  const NameKey := "name"
  const NodeIdKey := "node_id"

  /** The characters `run` strips from the node id. */
  const NodeIdPunctuation := {':', ',', '.'}

  /** An optional path in an f-string: the path, or "None". */
  function OptionText(x: Option<string>): string {
    match x
    case None => "None"
    case Some(s) => s
  }

  /**
   * The invocation `run` builds: the prepared ligand and receptor, the record's program, box,
   * cpu count and extra arguments, named `<receptor stem>_<ligand stem>` under the output path.
   */
  function RunInvocation(v: VinaCalculationData): (r: Invocation)
    requires v.preparedLigand.Some?
    reads v`preparedLigand, v`preparedReceptor, v`receptor, v`software, v`center, v`size, v`ncpu,
          v`extra, v`outPath
    ensures |r.argv| == 12 + |v.extra| && r.argv[12..] == v.extra
    ensures r.argv[0] == v.software.Value()
    ensures r.argv[1..12] == Options(OptionKeys, OptionValues(v.preparedLigand.value, OptionText(v.preparedReceptor),
                                                             v.center, v.size, v.ncpu, r.out, r.log))
    ensures r.out == OutFile(v.outPath, v.software, Stem(v.receptor) + "_" + Stem(v.preparedLigand.value))
    ensures r.log == LogFile(v.outPath, v.software, Stem(v.receptor) + "_" + Stem(v.preparedLigand.value))
  {
    var ligand := v.preparedLigand.value;
    var name := Some(Stem(v.receptor) + "_" + Stem(ligand));
    BuildArgv(ligand, OptionText(v.preparedReceptor), v.software, v.center, v.size, v.ncpu,
              name, v.outPath, Some(v.extra))
  }

  /**
   * The result mapping of a run: the SMILES string, the ligand's name (the stem of its file),
   * the node id without ':', ',' and '.', and the score, which is `None` exactly when the log
   * held no scores and otherwise the reduction of the scores by the record's score mode.
   */
  function DockingResult(smi: string, ligand: string, nodeId: string, scores: Option<seq<real>>,
                         mode: ScoreMode, k: int, calcScore: (seq<real>, ScoreMode, int) -> real)
    : (result: map<string, Field>)
    ensures result.Keys == {SmilesKey, NameKey, NodeIdKey, ScoreKey}
    ensures result[SmilesKey] == Text(smi) && result[NameKey] == Text(Stem(ligand))
    ensures result[NodeIdKey] == Text(RemoveChars(nodeId, NodeIdPunctuation))
    ensures forall c :: c in result[NodeIdKey].text <==> c in nodeId && c !in NodeIdPunctuation
    ensures result[ScoreKey] == NoneValue <==> scores.None?
    ensures scores.Some? ==> result[ScoreKey] == Number(calcScore(scores.value, mode, k))
  {
    var score := match scores
      case None => NoneValue
      case Some(s) => Number(calcScore(s, mode, k));
    var node := RemoveChars(nodeId, NodeIdPunctuation);
    ResultEntries(Text(smi), Text(Stem(ligand)), Text(node), score);
    map[SmilesKey := Text(smi), NameKey := Text(Stem(ligand)), NodeIdKey := Text(node), ScoreKey := score]
  }

  /** The four keys are distinct, so each entry of the result mapping reads back as stored. */
  lemma {:induction false} ResultEntries(smiles: Field, name: Field, nodeId: Field, score: Field)
    ensures var m := map[SmilesKey := smiles, NameKey := name, NodeIdKey := nodeId, ScoreKey := score];
      && m.Keys == {SmilesKey, NameKey, NodeIdKey, ScoreKey}
      && m[SmilesKey] == smiles && m[NameKey] == name && m[NodeIdKey] == nodeId && m[ScoreKey] == score
  {
    assert |SmilesKey| == 6 && |NameKey| == 4 && |NodeIdKey| == 7 && |ScoreKey| == 5;
  }

  /**
   * `run`: dock the prepared ligand, parse the log the docking program leaves (`logs` gives the
   * lines of a log file, or `None` when it cannot be opened), store the result mapping in the
   * record and return the parsed scores. `dock` tells how the docking program ends: an error
   * exit is only reported, so the log is parsed as usual, but a program that cannot be started
   * makes `sp.run` raise before the record changes. Without a prepared ligand it raises and
   * changes nothing.
   */
  method Run(v: VinaCalculationData, dock: seq<string> -> ToolRun, logs: string -> Option<seq<string>>,
             nodeId: string, parseNum: string -> Option<real>, calcScore: (seq<real>, ScoreMode, int) -> real)
    returns (r: Result<Option<seq<real>>, Error>)
    modifies v`result
    ensures v.preparedLigand.None? ==> r == Failure(LigandNotPrepared) && v.result == old(v.result)
    ensures v.preparedLigand.Some? && dock(old(RunInvocation(v)).argv) == NotStarted ==>
      r == Failure(ProgramNotStarted) && v.result == old(v.result)
    ensures v.preparedLigand.Some? && dock(old(RunInvocation(v)).argv) != NotStarted ==>
      && r == Success(ParseLog(logs(old(RunInvocation(v)).log), RowScorer(parseNum)))
      && v.result == Some(DockingResult(v.smi, v.preparedLigand.value, nodeId, r.value, v.scoreMode, v.k, calcScore))
    ensures r.Success? ==> v.Score().Scored? && (v.Score().score == NoneValue <==> r.value.None?)
  {
    if v.preparedLigand.None? {
      return Failure(LigandNotPrepared);
    }
    var invocation := RunInvocation(v);
    r := DockAndRecord(v, invocation, dock, logs, nodeId, parseNum, calcScore);
  }

  /**
   * The part of `run` after the command line is built: start the docking program, parse the log
   * it names and record the result mapping, unless the program cannot be started.
   */
  method DockAndRecord(v: VinaCalculationData, invocation: Invocation, dock: seq<string> -> ToolRun,
                       logs: string -> Option<seq<string>>, nodeId: string, parseNum: string -> Option<real>,
                       calcScore: (seq<real>, ScoreMode, int) -> real)
    returns (r: Result<Option<seq<real>>, Error>)
    requires v.preparedLigand.Some?
    modifies v`result
    ensures dock(invocation.argv) == NotStarted ==> r == Failure(ProgramNotStarted) && v.result == old(v.result)
    ensures dock(invocation.argv) != NotStarted ==>
      && r == Success(ParseLog(logs(invocation.log), RowScorer(parseNum)))
      && v.result == Some(DockingResult(v.smi, v.preparedLigand.value, nodeId, r.value, v.scoreMode, v.k, calcScore))
    ensures r.Success? ==> v.Score().Scored? && (v.Score().score == NoneValue <==> r.value.None?)
  {
    if dock(invocation.argv) == NotStarted {
      return Failure(ProgramNotStarted);
    }
    var scores := ParseLogfile(logs(invocation.log), parseNum);
    var result := DockingResult(v.smi, v.preparedLigand.value, nodeId, scores, v.scoreMode, v.k, calcScore);
    v.result := Some(result);
    StoredScore(v, result);
    return Success(scores);
  }

  /** A record holding a result mapping with a "score" entry reads that entry as its score. */
  lemma {:induction false} StoredScore(v: VinaCalculationData, result: map<string, Field>)
    requires v.result == Some(result) && ScoreKey in result
    ensures v.Score() == Scored(result[ScoreKey])
  {
  }

  /**
   * After preparing the ligand from its SMILES string, a run records the record's own name as the
   * ligand's name.
   */
  lemma {:induction false} RunRecordsLigandName(inPath: string, name: string, smi: string, nodeId: string,
                             scores: Option<seq<real>>, mode: ScoreMode, k: int,
                             calcScore: (seq<real>, ScoreMode, int) -> real)
    requires name != "" && '/' !in name
    ensures DockingResult(smi, LigandFile(inPath, name), nodeId, scores, mode, k, calcScore)[NameKey] == Text(name)
  {
    LigandFileStem(inPath, name);
  }
}

=== FILE: strings.dfy ===
/**
 * The parts of Python's `str` behaviour the docking layer relies on: `str.split()` with no
 * separator, the substring test `p in s`, decimal rendering of integers (`str(n)` and the
 * zero-padded `f'{n:0{w}}'`), string ordering and lower-casing of ASCII names.
 */
module Strings {

  /** The characters `c.isspace()` holds for. */
  const SpaceChars: set<char> := {'\t', '\n', '\U{B}', '\U{C}', '\r', '\U{1C}', '\U{1D}', '\U{1E}', '\U{1F}', ' ',
    '\U{85}', '\U{A0}', '\U{1680}', '\U{2000}', '\U{2001}', '\U{2002}', '\U{2003}', '\U{2004}',
    '\U{2005}', '\U{2006}', '\U{2007}', '\U{2008}', '\U{2009}', '\U{200A}', '\U{2028}', '\U{2029}',
    '\U{202F}', '\U{205F}', '\U{3000}'}

  /** `c.isspace()`: the characters `str.split()` without a separator splits on. */
  predicate IsSpace(c: char) {
    c in SpaceChars
  }

  predicate NoSpace(s: string) {
    forall i :: 0 <= i < |s| ==> !IsSpace(s[i])
  }

  /** A non-empty piece of text without whitespace: what `str.split()` yields. */
  predicate IsWord(w: string) {
    w != [] && NoSpace(w)
  }

  /** The length of the whitespace run that starts s. */
  function SpaceRun(s: string): (n: nat)
    ensures n <= |s|
    ensures forall i :: 0 <= i < n ==> IsSpace(s[i])
    ensures n < |s| ==> !IsSpace(s[n])
  {
    if s == [] || !IsSpace(s[0]) then 0 else 1 + SpaceRun(s[1..])
  }

  /** The length of the non-whitespace run that starts s. */
  function WordRun(s: string): (n: nat)
    ensures n <= |s|
    ensures forall i :: 0 <= i < n ==> !IsSpace(s[i])
    ensures n < |s| ==> IsSpace(s[n])
  {
    if s == [] || IsSpace(s[0]) then 0 else 1 + WordRun(s[1..])
  }

  /** `s.split()`: the maximal whitespace-free pieces of s, in order. */
  function Split(s: string): seq<string>
    decreases |s|
  {
    var i := SpaceRun(s);
    if i == |s| then []
    else
      var j := i + WordRun(s[i..]);
      [s[i..j]] + Split(s[j..])
  }

  /** `str.split()` yields only non-empty pieces without whitespace. */
  lemma {:induction false} SplitYieldsWords(s: string)
    ensures forall k :: 0 <= k < |Split(s)| ==> IsWord(Split(s)[k])
    decreases |s|
  {
    var i := SpaceRun(s);
    if i < |s| {
      var n := WordRun(s[i..]);
      FirstWordIsWord(s, i, n);
      SplitStep(s, i, n);
      var rest := Split(s[i + n..]);
      SplitYieldsWords(s[i + n..]);
      forall k | 0 <= k < |Split(s)|
        ensures IsWord(Split(s)[k])
      {
        if k > 0 {
          assert Split(s)[k] == rest[k - 1];
        }
      }
    }
  }

  /** The run of non-whitespace after the leading whitespace is a word. */
  lemma {:induction false} FirstWordIsWord(s: string, i: nat, n: nat)
    requires i == SpaceRun(s) < |s| && n == WordRun(s[i..])
    ensures i + n <= |s| && IsWord(s[i..i + n])
  {
    assert s[i..][0] == s[i];
    assert forall k :: 0 <= k < n ==> s[i..i + n][k] == s[i..][k];
  }

  /** `' '.join(words)` */
  function Unwords(words: seq<string>): string {
    if words == [] then ""
    else if |words| == 1 then words[0]
    else words[0] + " " + Unwords(words[1..])
  }

  /** Leading whitespace does not change how a string splits. */
  lemma {:induction false} SplitSkipsSpace(s: string)
    ensures Split(s) == Split(s[SpaceRun(s)..])
  {
    var i := SpaceRun(s);
    var t := s[i..];
    if i < |s| {
      var j := WordRun(t);
      SplitStep(s, i, j);
      assert SpaceRun(t) == 0;
      SplitStep(t, 0, j);
      SliceOfSuffix(s, i, j);
    } else {
      assert t == [];
    }
  }

  /** Slicing a suffix of s is slicing s itself, shifted. */
  lemma {:induction false} SliceOfSuffix<T>(s: seq<T>, i: nat, j: nat)
    requires i + j <= |s|
    ensures s[i..][0..j] == s[i..i + j] && s[i..][j..] == s[i + j..]
  {
  }

  /** A prefix one longer is the prefix followed by the next item. */
  lemma {:induction false} PrefixSnoc<T>(s: seq<T>, i: nat)
    requires i < |s|
    ensures s[..i + 1] == s[..i] + [s[i]]
  {
  }

  /** One step of Split: the first word, then the rest. */
  lemma {:induction false} SplitStep(s: string, i: nat, j: nat)
    requires i == SpaceRun(s) < |s| && i + j <= |s| && j == WordRun(s[i..])
    ensures Split(s) == [s[i..i + j]] + Split(s[i + j..])
  {
  }

  /** A word with no whitespace is all one run. */
  lemma {:induction false} WordRunOfWord(w: string, rest: string)
    requires NoSpace(w)
    requires rest == [] || IsSpace(rest[0])
    ensures WordRun(w + rest) == |w|
  {
    assert forall i :: 0 <= i < |w| ==> (w + rest)[i] == w[i];
    if rest != [] {
      assert (w + rest)[|w|] == rest[0];
    }
  }

  /** A whitespace-free word followed by whitespace (or nothing) splits off as one word. */
  lemma {:induction false} SplitWord(w: string, rest: string)
    requires IsWord(w)
    requires rest == [] || IsSpace(rest[0])
    ensures Split(w + rest) == [w] + Split(rest)
  {
    var s := w + rest;
    WordRunOfWord(w, rest);
    assert SpaceRun(s) == 0;
    assert s[0..] == s;
    assert s[0..|w|] == w;
    assert s[|w|..] == rest;
  }

  /** One leading space before a word does not change how a string splits. */
  lemma {:induction false} SplitSpace(u: string)
    requires u != [] && !IsSpace(u[0])
    ensures Split(" " + u) == Split(u)
  {
    assert SpaceRun(" " + u) == 1;
    SplitSkipsSpace(" " + u);
    assert (" " + u)[1..] == u;
  }

  /** A joined list of words starts with its first word's first character. */
  lemma {:induction false} UnwordsHead(words: seq<string>)
    requires words != [] && words[0] != []
    ensures Unwords(words) != [] && Unwords(words)[0] == words[0][0]
  {
    if |words| > 1 {
      assert Unwords(words) == words[0] + " " + Unwords(words[1..]);
    }
  }

  /** Joining a word in front of a non-empty list puts one space between it and the rest. */
  lemma {:induction false} UnwordsCons(w: string, rest: seq<string>)
    requires rest != []
    ensures Unwords([w] + rest) == w + (" " + Unwords(rest))
  {
    var ws := [w] + rest;
    assert ws[0] == w && ws[1..] == rest;
    assert Unwords(ws) == w + " " + Unwords(rest);
    assert w + " " + Unwords(rest) == w + (" " + Unwords(rest));
  }

  /** The space in front of a joined list of words does not change how it splits. */
  lemma {:induction false} SplitSpaceUnwords(rest: seq<string>)
    requires rest != [] && IsWord(rest[0])
    ensures Split(" " + Unwords(rest)) == Split(Unwords(rest))
  {
    UnwordsHead(rest);
    assert !IsSpace(rest[0][0]);
    SplitSpace(Unwords(rest));
  }

  /** The inductive step of SplitUnwords: a word in front of an already split-able tail. */
  lemma {:induction false} SplitConsWord(w: string, rest: seq<string>)
    requires IsWord(w) && rest != [] && IsWord(rest[0])
    requires Split(Unwords(rest)) == rest
    ensures Split(Unwords([w] + rest)) == [w] + rest
  {
    UnwordsCons(w, rest);
    SplitSpaceUnwords(rest);
    SplitWord(w, " " + Unwords(rest));
  }

  /** Splitting undoes joining with single spaces: `' '.join(ws).split() == ws`. */
  lemma {:induction false} SplitUnwords(words: seq<string>)
    requires forall i :: 0 <= i < |words| ==> IsWord(words[i])
    ensures Split(Unwords(words)) == words
  {
    if |words| == 1 {
      SplitWord(words[0], "");
      assert words[0] + "" == words[0];
    } else if words != [] {
      SplitUnwords(words[1..]);
      SplitConsWord(words[0], words[1..]);
      assert words == [words[0]] + words[1..];
    }
  }

  /** p occurs in s at position i. */
  predicate OccursAt(s: string, p: string, i: int) {
    0 <= i <= |s| - |p| && p <= s[i..]
  }

  /** `p in s` for strings: p occurs at some position of s. */
  predicate Contains(s: string, p: string) {
    exists i :: 0 <= i <= |s| - |p| && OccursAt(s, p, i)
  }

  function Pow10(e: nat): (r: nat)
    ensures r >= 1
  {
    if e == 0 then 1 else 10 * Pow10(e - 1)
  }

  /** The number of decimal digits of n (`len(str(n))`). */
  function NumDigits(n: nat): (d: nat)
    ensures 1 <= d
    ensures n < Pow10(d)
    ensures d > 1 ==> Pow10(d - 1) <= n
  {
    if n < 10 then 1
    else
      var d' := NumDigits(n / 10);
      assert n < 10 * Pow10(d') by { assert n / 10 + 1 <= Pow10(d'); }
      assert d' > 1 ==> 10 * Pow10(d' - 1) <= n by {
        if d' > 1 { assert Pow10(d' - 1) <= n / 10; }
      }
      1 + d'
  }

  /** The least e with n <= 10^e, which is `ceil(log10(n))` for n >= 1. */
  function CeilLog10(n: nat): (e: nat)
    ensures n <= Pow10(e)
    ensures e > 0 ==> Pow10(e - 1) < n
  {
    if n <= 1 then 0
    else
      var m := (n + 9) / 10;
      var e' := CeilLog10(m);
      assert n <= 10 * m;
      assert e' > 0 ==> 10 * Pow10(e' - 1) < n by {
        if e' > 0 { assert Pow10(e' - 1) <= m - 1; assert 10 * (m - 1) < n; }
      }
      1 + e'
  }

  /** No decimal number needs more digits than a power of ten above it provides. */
  lemma {:induction false} NumDigitsBound(n: nat, e: nat)
    requires n < Pow10(e)
    ensures NumDigits(n) <= e || (n == 0 && e == 0)
  {
    if n >= 10 {
      assert e >= 1;
      NumDigitsBound(n / 10, e - 1);
    } else if e == 0 {
      assert n == 0;
    }
  }

  predicate IsDigit(c: char) {
    '0' <= c <= '9'
  }

  predicate AllDigits(s: string) {
    forall i :: 0 <= i < |s| ==> IsDigit(s[i])
  }

  function DigitChar(d: nat): (c: char)
    requires d < 10
    ensures IsDigit(c)
  {
    ('0' as int + d) as char
  }

  function DigitValue(c: char): nat
    requires IsDigit(c)
  {
    c as int - '0' as int
  }

  /** The w lowest decimal digits of n, most significant first, zero-filled on the left. */
  function Fixed(n: nat, w: nat): (s: string)
    ensures |s| == w
    ensures AllDigits(s)
  {
    if w == 0 then "" else Fixed(n / 10, w - 1) + [DigitChar(n % 10)]
  }

  /** The number a string of decimal digits denotes (`int(s)`). */
  function DecimalValue(s: string): nat
    requires AllDigits(s)
  {
    if s == [] then 0 else 10 * DecimalValue(s[..|s| - 1]) + DigitValue(s[|s| - 1])
  }

  /** Reading back a fixed-width rendering gives the number, when it fits. */
  lemma {:induction false} FixedRoundTrip(n: nat, w: nat)
    requires n < Pow10(w)
    ensures DecimalValue(Fixed(n, w)) == n
  {
    if w > 0 {
      assert Pow10(w) == 10 * Pow10(w - 1);
      assert n / 10 < Pow10(w - 1);
      FixedRoundTrip(n / 10, w - 1);
      var s := Fixed(n, w);
      assert s == Fixed(n / 10, w - 1) + [DigitChar(n % 10)];
      assert s[..w - 1] == Fixed(n / 10, w - 1);
      assert DigitValue(s[w - 1]) == n % 10;
    }
  }

  /** `str(n)`: a '-' for a negative number, then its digits, which read back as its magnitude. */
  function IntToString(n: int): (r: string)
    ensures n >= 0 ==> r != "" && AllDigits(r) && DecimalValue(r) == n
    ensures n < 0 ==> |r| >= 2 && r[0] == '-' && AllDigits(r[1..]) && DecimalValue(r[1..]) == -n
    ensures n >= 0 ==> |r| == NumDigits(n)
    ensures n < 0 ==> |r| == 1 + NumDigits(-n)
  {
    var m: nat := if n < 0 then -n else n;
    FixedRoundTrip(m, NumDigits(m));
    var digits := Fixed(m, NumDigits(m));
    if n < 0 then
      assert ("-" + digits)[1..] == digits;
      "-" + digits
    else digits
  }

  /** `f'{n:0{w}}'` for n >= 0: the digits of n, zero-filled on the left to width w. */
  function ZeroPad(n: nat, w: int): string {
    Fixed(n, if w > NumDigits(n) then w else NumDigits(n))
  }

  /** Zero-padding cuts nothing off: the result is at least w digits long and reads back as n. */
  lemma {:induction false} ZeroPadReadsBack(n: nat, w: int)
    ensures |ZeroPad(n, w)| >= w && |ZeroPad(n, w)| >= NumDigits(n)
    ensures AllDigits(ZeroPad(n, w)) && DecimalValue(ZeroPad(n, w)) == n
  {
    var width := if w > NumDigits(n) then w else NumDigits(n);
    Pow10Monotone(NumDigits(n), width);
    FixedRoundTrip(n, width);
  }

  /** Powers of ten grow with the exponent. */
  lemma {:induction false} Pow10Monotone(d: nat, e: nat)
    requires d <= e
    ensures Pow10(d) <= Pow10(e)
    decreases e - d
  {
    if d < e {
      Pow10Monotone(d, e - 1);
    }
  }

  /** `a` and `b` agree up to some position where `a` holds the smaller character. */
  predicate FirstDifferenceLess(a: string, b: string) {
    exists k :: 0 <= k < |a| && k < |b| && a[..k] == b[..k] && a[k] < b[k]
  }

  /** Python's `a < b` on strings: lexicographic order by code point; no string is below itself. */
  predicate StrLess(a: string, b: string)
    ensures StrLess(a, b) ==> a != b
  {
    FirstDifferenceLess(a, b) || (|a| < |b| && a == b[..|a|])
  }

  /** String order is asymmetric: two strings are never each below the other. */
  lemma {:induction false} StrLessAsymmetric(a: string, b: string)
    requires StrLess(a, b)
    ensures !StrLess(b, a)
  {
  }

  /** Dropping the last digit of two numbers below 10^w keeps their order, strictly in the last digit when the rest agree. */
  lemma {:induction false} LastDigitOrder(i: nat, j: nat, w: nat)
    requires i < j < Pow10(w)
    ensures 0 < w && i / 10 <= j / 10 < Pow10(w - 1)
    ensures i / 10 == j / 10 ==> i % 10 < j % 10
  {
    assert w != 0;
    assert Pow10(w) == 10 * Pow10(w - 1);
  }

  /** Fixed-width renderings sort as strings in the order of the numbers. */
  lemma {:induction false} FixedOrder(i: nat, j: nat, w: nat)
    requires i < j < Pow10(w)
    ensures StrLess(Fixed(i, w), Fixed(j, w))
    ensures FirstDifferenceLess(Fixed(i, w), Fixed(j, w))
  {
    LastDigitOrder(i, j, w);
    var a, b := Fixed(i / 10, w - 1), Fixed(j / 10, w - 1);
    var s, t := Fixed(i, w), Fixed(j, w);
    assert s == a + [DigitChar(i % 10)] && t == b + [DigitChar(j % 10)];
    if i / 10 == j / 10 {
      assert s[..w - 1] == a == b == t[..w - 1];
      assert s[w - 1] < t[w - 1];
    } else {
      FixedOrder(i / 10, j / 10, w - 1);
      var k :| 0 <= k < |a| && k < |b| && a[..k] == b[..k] && a[k] < b[k];
      assert s[..k] == a[..k] && t[..k] == b[..k];
      assert s[k] == a[k] && t[k] == b[k];
    }
  }

  /** A common prefix does not change how two strings compare. */
  lemma {:induction false} PrefixKeepsOrder(p: string, a: string, b: string)
    requires FirstDifferenceLess(a, b)
    ensures StrLess(p + a, p + b)
  {
    var k :| 0 <= k < |a| && k < |b| && a[..k] == b[..k] && a[k] < b[k];
    assert (p + a)[..|p| + k] == p + a[..k];
    assert (p + b)[..|p| + k] == p + b[..k];
    assert (p + a)[|p| + k] == a[k] && (p + b)[|p| + k] == b[k];
  }

  function LowerChar(c: char): char {
    if 'A' <= c <= 'Z' then (c as int + 32) as char else c
  }

  /** `s.lower()` for ASCII text. */
  function Lower(s: string): (r: string)
    ensures |r| == |s|
    ensures forall i :: 0 <= i < |s| ==> r[i] == LowerChar(s[i])
  {
    seq(|s|, i requires 0 <= i < |s| => LowerChar(s[i]))
  }

  /** s with every character of `drop` deleted (`re.sub('[...]', '', s)`). */
  function RemoveChars(s: string, drop: set<char>): (r: string)
    ensures |r| <= |s|
    ensures forall c :: c in r <==> c in s && c !in drop
  {
    if s == [] then []
    else (if s[0] in drop then [] else [s[0]]) + RemoveChars(s[1..], drop)
  }

  /** Deleting characters from two pieces and joining them is deleting from the joined text: order and count are kept. */
  lemma {:induction false} RemoveCharsAppend(a: string, b: string, drop: set<char>)
    ensures RemoveChars(a + b, drop) == RemoveChars(a, drop) + RemoveChars(b, drop)
    decreases |a|
  {
    if a == [] {
      assert a + b == b;
    } else {
      assert (a + b)[0] == a[0] && (a + b)[1..] == a[1..] + b;
      RemoveCharsAppend(a[1..], b, drop);
    }
  }

  /** A single character is deleted when it is to be dropped and kept otherwise. */
  lemma {:induction false} RemoveCharsOne(c: char, drop: set<char>)
    ensures RemoveChars([c], drop) == if c in drop then [] else [c]
  {
    assert [c][1..] == [];
  }

  /** Deleting characters that do not occur changes nothing, so deleting twice is deleting once. */
  lemma {:induction false} RemoveCharsNoop(s: string, drop: set<char>)
    requires forall c :: c in s ==> c !in drop
    ensures RemoveChars(s, drop) == s
  {
    forall i | 0 <= i < |s|
      ensures s[i] !in drop
    {
      assert s[i] in s;
    }
    RemoveCharsKeepsAll(s, drop);
  }

  /** The same, with the deleted characters excluded position by position. */
  lemma {:induction false} RemoveCharsKeepsAll(s: string, drop: set<char>)
    requires forall i :: 0 <= i < |s| ==> s[i] !in drop
    ensures RemoveChars(s, drop) == s
  {
    if s != [] {
      assert forall i :: 0 <= i < |s[1..]| ==> s[1..][i] == s[i + 1];
      RemoveCharsKeepsAll(s[1..], drop);
      assert [s[0]] + s[1..] == s;
    }
  }
}

=== FILE: wrappers.dfy ===
/** Failure-compatible values shared by the model: Python's `None` and raised exceptions. */
module Wrappers {

  /** A value that may be Python's `None`. */
  datatype Option<+T> = None | Some(value: T)

  /** A call that either returns a value or raises an exception. */
  datatype Result<+T, +E> = Success(value: T) | Failure(error: E)
}
